=== FILE: README.md ===
# carrier shell — a Dafny model

`carrier` is a small C shell for OpenGL programs. It is made of four headers:

- `carrier_gfx.h` — a graphics registry. This is a process-wide `cg_context` holding three append-only lists: shader programs, vertex/buffer bindings and pipelines. It has:
  - setup, which applies the depth and blend settings;
  - the render-pass operations, which clear and draw;
  - shader loading, which compiles and links two stages;
  - buffer and pipeline creation;
  - a bulk shutdown that releases every registered driver object.
- `carrier_app.h` — the window and event manager. It covers:
  - window setup, with fatal exits;
  - the frame loop with the user's init, frame and cleanup callbacks;
  - five GLFW callback thunks that turn native input into `capp_event`s;
  - the window accessors and setters.
- `carrier_types.h` — the event taxonomy, the key and mouse-button code tables, and the record shapes.
- `carrier_log.h` — the severity colour and the trimming of a log message to one bounded line.

The model is functional. Every OpenGL and GLFW call becomes an entry of an append-only trace:

- `Gfx.Cmd` for the graphics registry, with `Gfx.Gl` holding the trace and a counter of names issued;
- `App.Call` for the shell.

Values only the native layer knows are parameters:

- **Fresh object names** come from the counter: a new name is the counter plus one, so it is never 0.
- **Compile and link status** come from a `ShaderOracle`.
- **`read_file` results** are an `Option<string>`.
- **`glewInit`** is a flag.
- **`glfwInit` success, allocation success, the video mode and the window handle** come from a `Platform` record. A handle of 0 means creation failed.
- **The frame loop's close flag** is the number of frames before it is first seen set.

What the driver is left doing after a trace is defined from the trace, with the last command winning:

- enabled capabilities;
- the depth and blend functions;
- polygon mode;
- the bound vertex array and the program in use;
- the viewport and the close flag.

A fatal path yields `Exited(1)`, and a dereference of the NULL or freed window record yields `Undefined`.

Modules:

- `Types` (types.dfy): the event taxonomy, the key and mouse tables, the records, and the counting lemmas.
- `Log` (log.dfy).
- `Gfx` (gfx.dfy).
- `App` (app.dfy).

`Gfx.Valid` is the registry invariant:

- each list agrees with its count;
- the stored program, vertex-array and buffer names are distinct names the driver issued, kept in issue order.

## Model

| member | source | states |
|---|---|---|
| Types.EventTypeOf | libs/carrier_types.h:11-21 | Only the values 0..7 name an event type, and decoding a value then taking its ordinal gives the value back. |
| Types.EventTaxonomy | libs/carrier_types.h:11-21 | There are exactly eight tags, pairwise distinct, numbered 0..7 in declaration order, and ordinal and decoding are mutually inverse. |
| Types.KeyTable | libs/carrier_types.h:23-146 | The key table has 121 strictly ascending, hence distinct, values. UNKNOWN (-1) comes first, and every other code lies in GLFW's 32..348 range, so each code names one key and the key thunk's cast is the identity. |
| Types.MouseButtonOf | libs/carrier_types.h:148-162 | Only the native button numbers 0..7 name a mouse code, and each maps back to the same number. |
| Types.MouseCodeRoundTrip | libs/carrier_types.h:148-162 | Each of the eight mouse codes decodes back to itself. |
| Types.PipelineConfRoundTrip | libs/carrier_types.h:236-264 | A pipeline and a pipeline configuration carry the same two fields: converting either way and back gives the original. |
| Log.ColourOf | libs/carrier_log.h:19-26 | ERROR is red, WARNING is yellow, and every other severity is cyan, each in both directions. |
| Log.SeveritiesDistinguishable | libs/carrier_log.h:14-26 | Two severities get the same escape sequence only if they are the same severity, and no colour sequence equals the reset sequence. |
| Log.FirstIndexOf | libs/carrier_log.h:36-37 | The index returned is the first occurrence of the character, or the length when it does not occur. |
| Log.Trim | libs/carrier_log.h:32-37 | The printed message has at most 255 characters, contains no newline, and is a prefix of the message. It stops early only at the 255 limit or at a newline. A message under 256 characters with no newline is printed unchanged. |
| Log.TrimIdempotent | libs/carrier_log.h:32-37 | Trimming an already trimmed message changes nothing. |
| Log.TrimUnique | libs/carrier_log.h:32-37 | Any prefix with the four properties of a trimmed message is exactly the trimmed message. |
| Gfx.Setup | libs/carrier_gfx.h:46-76 | A failed GLEW initialisation exits with status 1. Otherwise all three registries are empty, the invariant holds, and no name is issued. The driver sees exactly the depth commands, then the blend commands, then the success line. |
| Gfx.SetupConfiguresDriver | libs/carrier_gfx.h:52-67 | After setup, depth testing is on exactly when configured, with comparison LESS. Blending is on exactly when configured, with SRC_ALPHA and ONE_MINUS_SRC_ALPHA. |
| Gfx.SetupConfiguresDepth | libs/carrier_gfx.h:55-60 | After setup, depth testing is on exactly when configured, and then compares with LESS. |
| Gfx.SetupConfiguresBlend | libs/carrier_gfx.h:62-67 | After setup, blending is on exactly when configured, and then uses SRC_ALPHA and ONE_MINUS_SRC_ALPHA. |
| Gfx.ClearMask | libs/carrier_gfx.h:100-110 | The colour bit is always set. The depth bit is set exactly when the clear depth is in [0, 1], the stencil bit exactly when the clear stencil is non-negative, and no other bit is ever set. |
| Gfx.BeginPass | libs/carrier_gfx.h:97-113 | The pass first sets the clear colour and ends with a clear using the pass's mask, and no earlier command of the pass clears. Between those two it issues nothing but the clear depth, exactly for a depth in [0, 1], and the clear stencil, exactly for a non-negative stencil. Registries and names are unchanged. |
| Gfx.PassCmdsFacts | libs/carrier_gfx.h:97-113 | The pass's command list starts with the clear colour, ends with the only clear, and in between holds nothing but the depth and stencil values, each exactly when it opts in. |
| Gfx.SetWireframe | libs/carrier_gfx.h:246-248 | Afterwards polygons are drawn as lines exactly when `enable` is set, and the registries are unchanged. The one polygon-mode command is the only one issued. |
| Gfx.CompileCmdsFacts | libs/carrier_gfx.h:284-299 | Compiling creates exactly one stage object and deletes it exactly when the compile fails. It touches no other stage object and no program. |
| Gfx.Compile | libs/carrier_gfx.h:284-299 | The result is non-zero exactly when the compile succeeds, and is then the freshly issued name. |
| Gfx.CompileStages | libs/carrier_gfx.h:135-136 | Both stages are always compiled, vertex first, each with its own fresh name. Each result is non-zero exactly when its own compile succeeds. |
| Gfx.LinkCmdsFacts | libs/carrier_gfx.h:145-161 | Linking deletes both stage objects, creates only the new program, creates no stage, and deletes the program exactly when the link fails. |
| Gfx.Link | libs/carrier_gfx.h:145-166 | The program is non-zero exactly when the link succeeds. A failed link leaves the registry as it was. A successful one appends exactly the returned program. |
| Gfx.LoadShaderAsWritten | libs/carrier_gfx.h:124-167 | The load as written returns a non-zero program exactly when both files were read, both stages compile and the link succeeds. On every failure the registry is unchanged. On success exactly the returned program is appended. |
| Gfx.LoadShaderAsWrittenLeaksStage | libs/carrier_gfx.h:135-143 | When the vertex stage fails and the fragment stage compiles, the load as written creates the fragment object and never deletes it. |
| Gfx.LoadShaderAsWrittenAgrees | libs/carrier_gfx.h:124-167 | The load as written and the corrected load return the same program, leave the same context and issue the same number of names; when both files were read and a stage failed to compile, the corrected load's commands are the as-written commands followed by the deletes of the stages that compiled, and on every other path the driver state is identical. |
| Gfx.LoadShaderAsWrittenReleases | libs/carrier_gfx.h:135-161 | Unless a stage failed to compile, the load as written deletes every stage object it created, and every program except a returned one, which it creates and keeps. When a stage failed to compile it creates no program, and the stage that did compile is created and never deleted. |
| Gfx.LoadShaderAsWrittenKeepsValid | libs/carrier_gfx.h:163-166 | The load as written also keeps the registry invariant, and a returned program occurs exactly once in the registry. |
| Gfx.FailedCompileReleases | libs/carrier_gfx.h:135-143 | When a compile fails, releasing the stage that did compile leaves no stage object and no program alive. |
| Gfx.LinkReleases | libs/carrier_gfx.h:145-161 | Once both stages compile, linking leaves no stage object alive. A failed link also leaves no program alive. A successful one keeps its program. |
| Gfx.LoadCmdsRelease | libs/carrier_gfx.h:124-167 | The corrected load leaves no stage object alive on any path. No program survives unless the load succeeds, in which case exactly the new program survives. |
| Gfx.LoadShader | libs/carrier_gfx.h:124-167 | The corrected load. Program 0 is returned, and the registry left as it was, on every failure path: an unreadable file, a failed compile or a failed link. On success the program is the newest name issued and is appended to the shader registry, and nothing else in the context changes. An unreadable file issues no name. |
| Gfx.LoadShaderReleases | libs/carrier_gfx.h:141-161 | After a corrected load, every stage object it created has been deleted. A failed load leaves no program. A successful load leaves its returned program created and not deleted. |
| Gfx.LoadShaderKeepsValid | libs/carrier_gfx.h:163-166 | The corrected load keeps the registry invariant, and a returned program occurs exactly once in the registry. |
| Gfx.MakeBuffer | libs/carrier_gfx.h:169-197 | The index buffer is the sentinel 0 exactly when no index data is given. The vertex array, vertex buffer and index buffer are fresh names, in that order from the model's single name counter. Exactly the returned binding is appended to the binding registry, and nothing else in the context changes. The vertex data is uploaded with the three-float layout. An index upload happens exactly when index data is given. No vertex array is left bound. The driver sees exactly the buffer command list and nothing else. |
| Gfx.BufferCmdsFacts | libs/carrier_gfx.h:172-192 | The buffer command list uploads the vertices with the three-float layout, uploads indices exactly when index data is given, and ends by unbinding the vertex array. |
| Gfx.MakeBufferUnbinds | libs/carrier_gfx.h:191-192 | After a buffer is made, no vertex array is bound. |
| Gfx.MakeBufferKeepsValid | libs/carrier_gfx.h:194-196 | Making a buffer keeps the registry invariant. The new vertex array, vertex buffer and index buffer each occur exactly once, and the sentinel 0 is never registered as a buffer. |
| Gfx.MakePipeline | libs/carrier_gfx.h:199-208 | The pipeline copies the configuration's shader and primitive type. Exactly that pipeline is appended to the pipeline registry, nothing else in the context changes, and no driver call is made. |
| Gfx.MakePipelineKeepsValid | libs/carrier_gfx.h:205-207 | Making a pipeline keeps the registry invariant. |
| Gfx.IndexOffset | libs/carrier_gfx.h:221-227 | The index byte offset is a multiple of four below 2^64. It equals base × 4 whenever that fits, and is congruent to it modulo 2^64 otherwise. |
| Gfx.Render | libs/carrier_gfx.h:218-232 | The draw is instanced exactly when more than one instance is asked for, and indexed exactly when the binding has an index buffer. It always uses triangles, whatever the applied pipeline's primitive type, and the given count. The instance count, index type and offset, or first vertex are passed on as the path requires. |
| Gfx.ApplyPipeline | libs/carrier_gfx.h:210-212 | Afterwards the pipeline's program is in use and the bound vertex array is unchanged. The one use-program command is the only one issued. |
| Gfx.ApplyBindings | libs/carrier_gfx.h:214-216 | Afterwards the binding's vertex array is bound and the program in use is unchanged. The one bind command is the only one issued. |
| Gfx.EndPass | libs/carrier_gfx.h:115-118 | Afterwards no vertex array is bound and no program is in use. Exactly the unbind of the vertex array, then of the program, is issued. |
| Gfx.Shutdown | libs/carrier_gfx.h:78-95 | Shutdown deletes every registered program in registry order, then each binding's vertex array, vertex buffer and index buffer (if any) in registry order, then logs. No name is issued. |
| Gfx.ProgramReleaseCounts | libs/carrier_gfx.h:79-81 | Each program name is deleted as often as it is registered, and no vertex array or buffer is deleted by the program loop. |
| Gfx.BindingReleaseCount | libs/carrier_gfx.h:85-89 | One binding's release deletes its vertex array once, each buffer it owns once, the sentinel 0 never, and no program. |
| Gfx.BindingReleaseCounts | libs/carrier_gfx.h:84-90 | Each vertex-array and buffer name is deleted as often as the binding registry holds it, and no program is deleted by the binding loop. |
| Gfx.ShutdownReleasesEachOnce | libs/carrier_gfx.h:78-93 | Under the invariant, shutdown deletes each registered program, vertex array, vertex buffer and index buffer exactly once. It deletes no unregistered name and never passes 0 to the driver. |
| App.SetupWindow | libs/carrier_app.h:135-162 | Creation fails, fatally, exactly when the returned handle is null. Otherwise the record holds the handle and the video-mode size with the full-screen flag when full screen is configured, or the configured size otherwise. It always copies the title and context version. The video mode is queried exactly for a full-screen window. The creation calls are followed by the success line, or by the error line and the library's termination on failure. |
| App.Wiring | libs/carrier_app.h:104-111 | Wiring installs all five input callbacks on the window, turns vsync on and stores the configuration as the user pointer. It sets no viewport, delivers no event and runs none of the init, frame or cleanup callbacks. |
| App.Setup | libs/carrier_app.h:82-115 | Setup exits with status 1 exactly when initialisation, allocation or window creation fails. Each fatal path's calls are exact: a failed initialisation logs its error and nothing more. A failed allocation logs its error after the hints and terminates. A failed creation logs its error after the creation calls and terminates. On success the window is live and the calls are initialisation, hints, window creation and launch, in that order. |
| App.SetupFatalRunsNoUserCode | libs/carrier_app.h:82-102 | A fatal setup logs the error line of the step that failed, terminates the library exactly when initialisation had succeeded, and never installs a callback, sets a viewport, delivers an event or runs a user callback. |
| App.SetupLaunches | libs/carrier_app.h:102-114 | After a successful setup all five callbacks are installed, and the viewport covers the window at its stored size. The init callback has run exactly once when one is configured and never otherwise, and then as the last call. |
| App.LaunchFacts | libs/carrier_app.h:104-114 | Whatever came before, launching wires the window, sets the viewport to its size, and runs the init callback last exactly when one is configured. |
| App.Run | libs/carrier_app.h:117-129 | A run performs one frame per pass before the close flag is seen, then the teardown, and the window record is gone afterwards. |
| App.FramesCount | libs/carrier_app.h:118-121 | The loop polls once per pass and calls the frame callback once per pass exactly when one is configured. It never calls the init or cleanup callback. |
| App.FramesPollAfterFrame | libs/carrier_app.h:118-121 | Every frame callback is immediately followed by that pass's event poll. |
| App.FramesOnlyLoop | libs/carrier_app.h:118-121 | The loop makes no call other than the frame callback and the poll. |
| App.TeardownCount | libs/carrier_app.h:123-128 | Teardown calls the cleanup callback once exactly when one is configured, destroys the window once, and does not poll. |
| App.RunCleansUpOnce | libs/carrier_app.h:117-129 | Over a whole run, the cleanup callback runs exactly once when configured and never otherwise, the window is destroyed exactly once, and the loop polls once per frame. A configured cleanup comes right after the last frame and right before the window is destroyed. |
| App.KeyKind | libs/carrier_app.h:176-182 | Press gives KEY_DOWN, release gives KEY_UP and repeat gives KEY_REPEAT, each in both directions. |
| App.KeyKindRoundTrip | libs/carrier_app.h:176-182 | The key action and the key event type determine each other. |
| App.KeyEvent | libs/carrier_app.h:174-187 | The key event is well formed, has the type the action maps to, and carries key, scancode, action and modifiers unchanged. A valid key code stays a valid key code. |
| App.ButtonEvent | libs/carrier_app.h:196-201 | A press gives MOUSE_DOWN and every other action MOUSE_UP. The event carries the button, action, modifiers and cursor position, and a valid button code maps back to the same button. |
| App.Dispatch | libs/carrier_app.h:173-188 | Without an event callback nothing happens. With one, exactly the given event is delivered, once. The window record is unchanged either way. |
| App.OnKey | libs/carrier_app.h:170-190 | With an event callback exactly one well-formed event is delivered. Its type follows the action, the action is recoverable from the type, and its key, scancode, action and modifiers are GLFW's. Without a callback nothing happens. |
| App.OnButton | libs/carrier_app.h:192-204 | With an event callback exactly one well-formed event is delivered. It is a button-down exactly on a press and carries the button, action, modifiers and cursor position. Without a callback nothing happens. |
| App.OnCursor | libs/carrier_app.h:206-216 | With an event callback exactly one mouse-move event is delivered, carrying the two coordinates verbatim. Without a callback nothing happens. |
| App.OnScroll | libs/carrier_app.h:218-228 | With an event callback exactly one scroll event is delivered, carrying both offsets verbatim. Without a callback nothing happens. |
| App.OnResize | libs/carrier_app.h:230-241 | The calls added are exactly the delivery of the resize event, when an event callback is set, followed by the viewport (0, 0, w, h), which is therefore the current viewport. The window record, and so its stored size, is unchanged. |
| App.GetWidth | libs/carrier_app.h:66-68 | The width is read without checking the window record: undefined while there is none, otherwise the stored width. |
| App.GetHeight | libs/carrier_app.h:70-72 | The height is read the same way: undefined while there is no window record, otherwise the stored height. |
| App.SizeIsCreationSize | libs/carrier_app.h:66-72 | The width and height the accessors report are the size the window was created at. A resize leaves them unchanged while the viewport follows the new size. |
| App.SetTitleAsWritten | libs/carrier_app.h:44-52 | The title setter as written is undefined exactly when the window record is NULL, and otherwise behaves as the checked setter. |
| App.SetTitle | libs/carrier_app.h:44-52 | With a live window the title is set on the window and in the record, and success is logged; those two are the only calls. With no window, or a null handle, only the error is logged and nothing else changes. |
| App.SetShouldCloseAsWritten | libs/carrier_app.h:54-60 | The close setter as written is undefined exactly when the window record is NULL. |
| App.SetShouldClose | libs/carrier_app.h:54-60 | With a live window the close flag becomes the given value, through the one set-close call and nothing else. Otherwise the flag is unchanged and only the error is logged. |
| App.SettersBeforeSetup | libs/carrier_app.h:44-72 | Before setup the setters as written and the size accessors are undefined, while the checked setters log their error and leave the close flag unset. |
| App.SettersAfterRun | libs/carrier_app.h:44-72 | After a run frees the record, the setters as written and the size accessors are undefined, while the checked title setter only logs its error. |

## Left out

- `read_file` (libs/carrier_gfx.h:254-282) is file I/O. Its result is the `Option<string>` parameter of the load, and its own error log lines are not recorded.
- The GLFW and OpenGL constant values are not in the repository. The key codes, mouse button numbers and action codes are those of the GLFW 3 header. The GL enumerants are those of the OpenGL registry.
- Floating point is modelled as `real`. A NaN clear depth, float rounding, and the int-to-float conversion in `cr_get_width`/`cr_get_height` are not modelled.
- These calls are not modelled: `cg_commit`, `cg_get_location`, `cg_set_uniform_mat4`, `cg_set_uniform_vec4`, `cr_get_time`, `cr_get_key` and `cr_get_window`. Each passes its arguments straight to the driver with no decision of its own.
- Unchecked `malloc`/`realloc` when appending to a registry, and `free`, are not modelled: allocation is assumed to succeed. The window record's allocation in `cr_setup` is checked by the source and is modelled.
- The timestamp, the stderr write of `cr_log`, `error_callback`'s formatting, the `CARRIER_MAIN_FUNC` macro and the user-pointer cast are not modelled.
- Gfx.Setup: the fatal path returns only its exit status. The error line logged just before `exit` is not part of the result. (App.Setup's fatal results do carry their error line.)
- Gfx.Shutdown: the registries are freed but neither reset nor emptied by the source. The model returns only the driver state, so a second shutdown, which would be a double free, is not modelled.
- The driver's name allocation is one counter shared by every object kind (shader, program, vertex array, buffer). Names are never reused, which is stronger than OpenGL promises after a delete. OpenGL names each kind separately. So `vao < vbo < ebo` in Gfx.MakeBuffer and `program == issued + 3` in Gfx.LoadShader are properties of this counter, not of the source.
- App.Run: the close flag is a frame count (how many times it reads false). A close requested by a callback during the run is not modelled.
- App.KeyKind, App.KeyEvent, App.OnKey: the action must be press, release or repeat. GLFW passes no other action, and for any other value the source would deliver an uninitialised event type.
- App.ButtonEvent: the cursor position read with `glfwGetCursorPos` is a parameter.
- Gfx.IndexOffset: assumes a 64-bit `size_t`, so the byte offset wraps modulo 2^64; on a platform with a 32-bit `size_t` it would wrap modulo 2^32.
- App.GetWidth, App.GetHeight: reading the size before setup or after the run dereferences NULL or freed memory; the model reports that as undefined rather than guessing a value.
- Log.Trim: one Dafny `char` stands for one C byte. `strncpy` counts bytes, so a UTF-8 message longer than 255 bytes but shorter than 256 code points is cut by the source, possibly inside a code point, while the model prints it whole.
- App.Run: requires the window record to be present. Running before setup dereferences NULL, as with the setters, but that case is not modelled.

## Findings

| source | as written | input that shows it | evidently intended | confidence | as-written member | corrected member |
|---|---|---|---|---|---|---|
| libs/carrier_gfx.h:141-143 | When one stage fails to compile, the load returns 0 without deleting the other stage's object, which did compile | both files read, vertex stage fails, fragment stage compiles | delete whichever stage object was created before returning 0, as the link path does | high (not executed) | Gfx.LoadShaderAsWritten, Gfx.LoadShaderAsWrittenLeaksStage, Gfx.LoadShaderAsWrittenReleases | Gfx.LoadShader, Gfx.LoadCmdsRelease, Gfx.LoadShaderReleases |
| libs/carrier_app.h:44-52 | `cwindow->glfw_window` is read without checking `cwindow`, which is NULL before `cr_setup` and freed after `cr_run` | `cr_set_window_title("x")` before setup | log "invalid window" and change nothing | medium (not executed) | App.SetTitleAsWritten, App.SettersBeforeSetup | App.SetTitle |
| libs/carrier_app.h:54-60 | the same unchecked dereference in the close-flag setter | `cr_set_window_should_close(true)` before setup | log "invalid window" and leave the flag | medium (not executed) | App.SetShouldCloseAsWritten, App.SettersBeforeSetup | App.SetShouldClose |

=== FILE: app.dfy ===
/** The application shell: window setup, the frame loop, the five input callbacks that turn
    windowing events into application events, and the window accessors. Calls into the
    windowing library are recorded as a trace of `Call`s; what the library answers (whether it
    initialises, the video mode, the window handle, the cursor position, when the close flag is
    first seen) is passed in. */
module App {
  import opened Types
  import Log

  // ---------------------------------------------------------------------------------------
  // Windowing-library constants and calls
  // ---------------------------------------------------------------------------------------

  /** GLFW's action codes. */
  const Release := 0
  const Press := 1
  const Repeat := 2

  /** The window hints cr_setup gives before creating the window. */
  datatype Hint = ContextMajor(major: int) | ContextMinor(minor: int) | CoreProfile | Resizable(on: bool)

  /** The five per-window callbacks the shell installs. */
  datatype CallbackKind = KeyCallback | MouseButtonCallback | CursorPosCallback | ScrollCallback | FramebufferSizeCallback

  datatype Rect = Rect(x: int, y: int, width: int, height: int)

  /** The lines the shell logs. */
  datatype Message =
    | InitFailed | Initialized | AllocFailed | WindowFailed | WindowCreated
    | TitleUpdated | TitleFailed | CloseFailed | ShutDown

  /** The text logged for each message. */
  function Text(m: Message): string
  {
    match m
    case InitFailed => "Failed to initialize [carrier app module]"
    case Initialized => "Successfully initialized [carrier app module]"
    case AllocFailed => "Failed to allocate memory for window"
    case WindowFailed => "Failed to create window"
    case WindowCreated => "Successfully created window"
    case TitleUpdated => "Successfully updated window title"
    case TitleFailed => "Failed to update window title: invalid window"
    case CloseFailed => "Failed to set window should close: invalid window"
    case ShutDown => "Successfully shutdown [carrier app module]"
  }

  /** One call into the windowing library, the GL viewport, one of the application's callbacks,
      or one log line. */
  datatype Call =
    | Init
    | SetErrorCallback
    | WindowHint(hint: Hint)
    | Terminate
    | GetPrimaryMonitor
    | GetVideoMode
    | CreateWindow(width: int, height: int, title: string, onMonitor: bool, handle: nat)
    | MakeContextCurrent(handle: nat)
    | SwapInterval(interval: int)
    | SetUserPointer(handle: nat)
    | SetCallback(handle: nat, kind: CallbackKind)
    | Viewport(rect: Rect)
    | InitCallback
    | FrameCallback
    | PollEvents
    | CleanupCallback
    | DestroyWindow(handle: nat)
    | FreeWindow
    | SetWindowTitle(handle: nat, title: string)
    | SetWindowShouldClose(handle: nat, flag: bool)
    | Deliver(event: Event)
    | LogLine(severity: Log.Severity, message: Message)

  /** What the windowing library answers during setup: whether it initialises, whether the
      window record can be allocated, the primary monitor's video mode, and the handle
      glfwCreateWindow returns (0 when it fails). */
  datatype Platform = Platform(initOk: bool, allocOk: bool, videoWidth: int, videoHeight: int, handle: nat)

  /** The shell's state: the global window record (None while it is NULL or after it was
      freed) and everything called so far. */
  datatype App = App(window: Option<Window>, trace: seq<Call>)

  /** The viewport after `t`: the last one set, if any. */
  function CurrentViewport(t: seq<Call>): Option<Rect>
  {
    if |t| == 0 then None
    else if t[|t| - 1].Viewport? then Some(t[|t| - 1].rect)
    else CurrentViewport(t[..|t| - 1])
  }

  /** The close flag after `t`: the last value set, false before any. */
  function CloseRequested(t: seq<Call>): bool
  {
    if |t| == 0 then false
    else if t[|t| - 1].SetWindowShouldClose? then t[|t| - 1].flag
    else CloseRequested(t[..|t| - 1])
  }

  /** All five input callbacks are installed on window `h`. */
  ghost predicate Wired(t: seq<Call>, h: nat)
  {
    forall k: CallbackKind :: SetCallback(h, k) in t
  }

  /** Installing the callbacks stays in effect whatever comes before or after. */
  lemma WiredExtends(a: seq<Call>, m: seq<Call>, b: seq<Call>, h: nat)
    requires Wired(m, h)
    ensures Wired(a + m + b, h)
  {
    forall k: CallbackKind
      ensures SetCallback(h, k) in a + m + b
    {
      var i :| 0 <= i < |m| && m[i] == SetCallback(h, k);
      assert (a + m + b)[|a| + i] == m[i];
    }
  }

  // ---------------------------------------------------------------------------------------
  // cr_setup_window and cr_setup
  // ---------------------------------------------------------------------------------------

  /** The size a window is created at: the monitor's video mode when full screen, the
      configured size otherwise. */
  function WindowSize(conf: Conf, p: Platform): (int, int)
  {
    if conf.fullscreen then (p.videoWidth, p.videoHeight) else (conf.width, conf.height)
  }

  /** Creates the window and fills in the record. A failed creation is fatal. On success the
      record holds the handle, the size the window was created at, the configured title and
      context version, and whether it is full screen; the video mode is queried only for a
      full-screen window. */
  function CreateCalls(conf: Conf, p: Platform): seq<Call>
  {
    var size := WindowSize(conf, p);
    (if conf.fullscreen then [GetPrimaryMonitor, GetVideoMode] else [])
      + [CreateWindow(size.0, size.1, conf.title, conf.fullscreen, p.handle)]
  }

  function SetupWindow(conf: Conf, p: Platform): (r: (Outcome<Window>, seq<Call>))
    ensures r.0.Exited? <==> p.handle == 0
    ensures !r.0.Undefined? && (r.0.Exited? ==> r.0.status == ExitFailure)
    ensures r.0.Running? ==>
      var w := r.0.value;
      && w.handle == p.handle
      && (w.width, w.height) == WindowSize(conf, p)
      && w.fullscreen == conf.fullscreen
      && w.title == conf.title && w.glMajor == conf.glMajor && w.glMinor == conf.glMinor
      && CreateWindow(w.width, w.height, conf.title, conf.fullscreen, p.handle) in r.1
    ensures GetVideoMode in r.1 <==> conf.fullscreen
    ensures r.0.Exited? ==> |r.1| > 0 && r.1[|r.1| - 1] == Terminate
    ensures r.0.Exited? ==> r.1 == CreateCalls(conf, p) + [LogLine(Log.Error, WindowFailed), Terminate]
    ensures r.0.Running? ==> r.1 == CreateCalls(conf, p) + [LogLine(Log.Success, WindowCreated)]
  {
    var size := WindowSize(conf, p);
    var create := CreateCalls(conf, p);
    if p.handle == 0 then
      (Exited(ExitFailure), create + [LogLine(Log.Error, WindowFailed), Terminate])
    else
      (Running(Window(p.handle, size.0, size.1, conf.title, conf.fullscreen, conf.glMajor, conf.glMinor)),
       create + [LogLine(Log.Success, WindowCreated)])
  }

  function Hints(conf: Conf): seq<Call>
  {
    [WindowHint(ContextMajor(conf.glMajor)), WindowHint(ContextMinor(conf.glMinor)),
     WindowHint(CoreProfile), WindowHint(Resizable(conf.resizable))]
  }

  /** Makes the context current with vsync, stores the configuration as the user pointer, and
      installs the five callbacks. */
  function Wiring(h: nat): (t: seq<Call>)
    ensures Wired(t, h)
    ensures SwapInterval(1) in t && SetUserPointer(h) in t
    ensures forall k :: 0 <= k < |t| ==>
      && !t[k].Viewport? && !t[k].Deliver?
      && t[k] != InitCallback && t[k] != FrameCallback && t[k] != CleanupCallback
  {
    var t := [MakeContextCurrent(h), SwapInterval(1), SetUserPointer(h),
      SetCallback(h, KeyCallback), SetCallback(h, MouseButtonCallback), SetCallback(h, CursorPosCallback),
      SetCallback(h, ScrollCallback), SetCallback(h, FramebufferSizeCallback)];
    assert forall k: CallbackKind :: SetCallback(h, k) == t[3 + (match k
      case KeyCallback => 0 case MouseButtonCallback => 1 case CursorPosCallback => 2
      case ScrollCallback => 3 case FramebufferSizeCallback => 4)];
    t
  }

  /** What cr_setup asks of the library when every step succeeds, after the window exists. */
  function Launch(conf: Conf, w: Window): seq<Call>
  {
    Wiring(w.handle) + [Viewport(Rect(0, 0, w.width, w.height))] + if conf.initCb then [InitCallback] else []
  }

  /** cr_setup. Initialisation failure, allocation failure and window-creation failure are each
      fatal; only the last two terminate the library first. */
  function Setup(conf: Conf, p: Platform): (r: (Outcome<App>, seq<Call>))
    ensures r.0.Exited? <==> !p.initOk || !p.allocOk || p.handle == 0
    ensures !r.0.Undefined? && (r.0.Exited? ==> r.0.status == ExitFailure)
    ensures !p.initOk ==> Terminate !in r.1
    ensures p.initOk && r.0.Exited? ==> |r.1| > 0 && r.1[|r.1| - 1] == Terminate
    ensures !p.initOk ==> r.1 == [Init, LogLine(Log.Error, InitFailed)]
    ensures p.initOk && !p.allocOk ==>
      r.1 == [Init, LogLine(Log.Success, Initialized), SetErrorCallback] + Hints(conf) + [LogLine(Log.Error, AllocFailed), Terminate]
    ensures p.initOk && p.allocOk && p.handle == 0 ==>
      r.1 == [Init, LogLine(Log.Success, Initialized), SetErrorCallback] + Hints(conf)
             + CreateCalls(conf, p) + [LogLine(Log.Error, WindowFailed), Terminate]
    ensures r.0.Running? ==>
      && r.0.value.trace == r.1
      && r.0.value.window.Some?
      && r.0.value.window.value == SetupWindow(conf, p).0.value
      && r.1 == [Init, LogLine(Log.Success, Initialized), SetErrorCallback] + Hints(conf)
                + SetupWindow(conf, p).1 + Launch(conf, r.0.value.window.value)
  {
    if !p.initOk then (Exited(ExitFailure), [Init, LogLine(Log.Error, InitFailed)])
    else
      var pre := [Init, LogLine(Log.Success, Initialized), SetErrorCallback] + Hints(conf);
      if !p.allocOk then (Exited(ExitFailure), pre + [LogLine(Log.Error, AllocFailed), Terminate])
      else
        var (ow, calls) := SetupWindow(conf, p);
        if !ow.Running? then (Exited(ExitFailure), pre + calls)
        else
          var t := pre + calls + Launch(conf, ow.value);
          (Running(App(Some(ow.value), t)), t)
  }

  /** The error line a fatal setup logs before exiting. */
  function FatalLine(p: Platform): Call
  {
    if !p.initOk then LogLine(Log.Error, InitFailed)
    else if !p.allocOk then LogLine(Log.Error, AllocFailed)
    else LogLine(Log.Error, WindowFailed)
  }

  /** A fatal setup logs its error line, terminates the library exactly when initialisation
      had succeeded, and never installs a callback, sets a viewport or runs user code. */
  lemma {:induction false} SetupFatalRunsNoUserCode(conf: Conf, p: Platform)
    requires !p.initOk || !p.allocOk || p.handle == 0
    ensures var t := Setup(conf, p).1;
      && FatalLine(p) in t
      && (Terminate in t <==> p.initOk)
      && forall k :: 0 <= k < |t| ==>
           && !t[k].SetCallback? && !t[k].Viewport? && !t[k].Deliver?
           && t[k] != InitCallback && t[k] != FrameCallback && t[k] != CleanupCallback
  {
    var t := Setup(conf, p).1;
    var pre := [Init, LogLine(Log.Success, Initialized), SetErrorCallback] + Hints(conf);
    if !p.initOk {
      assert t == [Init, LogLine(Log.Error, InitFailed)];
    } else if !p.allocOk {
      assert t == pre + [LogLine(Log.Error, AllocFailed), Terminate];
      assert t[|t| - 2] == FatalLine(p);
    } else {
      var c := CreateCalls(conf, p);
      assert t == pre + c + [LogLine(Log.Error, WindowFailed), Terminate];
      assert t[|t| - 2] == FatalLine(p);
      assert forall k :: 0 <= k < |c| ==> c[k].GetPrimaryMonitor? || c[k].GetVideoMode? || c[k].CreateWindow?;
    }
  }

  /** After a successful setup every callback is installed on the new window, the viewport
      covers the window at the size it was created at, and the user's init callback has run
      last exactly when one is configured. */
  lemma {:induction false} SetupLaunches(conf: Conf, p: Platform)
    requires p.initOk && p.allocOk && p.handle != 0
    ensures var r := Setup(conf, p);
      && r.0.Running?
      && var w := r.0.value.window.value;
      && Wired(r.1, p.handle)
      && CurrentViewport(r.1) == Some(Rect(0, 0, w.width, w.height))
      && (w.width, w.height) == WindowSize(conf, p)
      && (InitCallback in r.1 <==> conf.initCb)
      && Count(r.1, InitCallback) == (if conf.initCb then 1 else 0)
      && (conf.initCb ==> r.1[|r.1| - 1] == InitCallback)
  {
    var r := Setup(conf, p);
    var w := r.0.value.window.value;
    var pre := [Init, LogLine(Log.Success, Initialized), SetErrorCallback] + Hints(conf) + SetupWindow(conf, p).1;
    assert r.1 == pre + Launch(conf, w);
    NoInitCallbackBeforeLaunch(conf, p);
    LaunchFacts(pre, conf, w);
  }

  /** Nothing before the wiring runs the user's init callback. */
  lemma NoInitCallbackBeforeLaunch(conf: Conf, p: Platform)
    ensures InitCallback !in [Init, LogLine(Log.Success, Initialized), SetErrorCallback] + Hints(conf) + SetupWindow(conf, p).1
  {
  }

  /** Whatever came before, launching a window wires it, sets the viewport to its size, and runs
      the init callback last exactly when one is configured. */
  lemma LaunchFacts(pre: seq<Call>, conf: Conf, w: Window)
    requires InitCallback !in pre
    ensures var t := pre + Launch(conf, w);
      && Wired(t, w.handle)
      && CurrentViewport(t) == Some(Rect(0, 0, w.width, w.height))
      && (InitCallback in t <==> conf.initCb)
      && Count(t, InitCallback) == (if conf.initCb then 1 else 0)
      && (conf.initCb ==> t[|t| - 1] == InitCallback)
  {
    var view := Viewport(Rect(0, 0, w.width, w.height));
    var init: seq<Call> := if conf.initCb then [InitCallback] else [];
    var t := pre + Launch(conf, w);
    assert t == pre + Wiring(w.handle) + ([view] + init);
    WiredExtends(pre, Wiring(w.handle), [view] + init, w.handle);
    assert t == pre + Wiring(w.handle) + [view] + init;
    ViewportAfter(pre + Wiring(w.handle), view, init);
    assert InitCallback !in Wiring(w.handle);
    var front := pre + Wiring(w.handle) + [view];
    assert InitCallback !in front;
    CountZero(front, InitCallback);
    CountConcat(front, init, InitCallback);
    if conf.initCb {
      CountSingle(InitCallback, InitCallback);
    } else {
      assert Count(init, InitCallback) == 0;
    }
    assert t == front + init;
  }

  lemma ViewportAfter(t: seq<Call>, v: Call, u: seq<Call>)
    requires v.Viewport?
    requires forall k :: 0 <= k < |u| ==> !u[k].Viewport?
    ensures CurrentViewport(t + [v] + u) == Some(v.rect)
    decreases |u|
  {
    if |u| > 0 {
      assert (t + [v] + u)[..|t + [v] + u| - 1] == t + [v] + u[..|u| - 1];
      ViewportAfter(t, v, u[..|u| - 1]);
    } else {
      assert (t + [v] + u)[|t|] == v;
    }
  }

  // ---------------------------------------------------------------------------------------
  // cr_run
  // ---------------------------------------------------------------------------------------

  /** One pass of the frame loop: the frame callback, when configured, then an event poll. */
  function Frame(conf: Conf): seq<Call>
  {
    (if conf.frameCb then [FrameCallback] else []) + [PollEvents]
  }

  /** `n` passes of the frame loop. */
  function Frames(conf: Conf, n: nat): seq<Call>
  {
    if n == 0 then [] else Frames(conf, n - 1) + Frame(conf)
  }

  /** After the loop: the cleanup callback when configured, then the window is destroyed, the
      library terminated, the record freed, and the shutdown logged. */
  function Teardown(conf: Conf, h: nat): seq<Call>
  {
    (if conf.cleanupCb then [CleanupCallback] else []) + [DestroyWindow(h), Terminate, FreeWindow, LogLine(Log.Success, ShutDown)]
  }

  /** cr_run. `frames` is the number of times the close flag reads false before it first reads
      true. The record is freed at the end, so the window is gone afterwards. */
  method Run(conf: Conf, app: App, frames: nat) returns (r: App)
    requires app.window.Some?
    ensures r.window.None?
    ensures r.trace == app.trace + Frames(conf, frames) + Teardown(conf, app.window.value.handle)
  {
    var t := app.trace;
    var k := 0;
    while k < frames
      invariant 0 <= k <= frames
      invariant t == app.trace + Frames(conf, k)
    {
      if conf.frameCb {
        t := t + [FrameCallback];
      }
      t := t + [PollEvents];
      k := k + 1;
    }
    r := App(None, t + Teardown(conf, app.window.value.handle));
  }

  /** The loop polls once per pass and calls the frame callback once per pass exactly when one
      is configured; it never calls init or cleanup. */
  lemma {:induction false} FramesCount(conf: Conf, n: nat)
    ensures Count(Frames(conf, n), PollEvents) == n
    ensures Count(Frames(conf, n), FrameCallback) == if conf.frameCb then n else 0
    ensures CleanupCallback !in Frames(conf, n) && InitCallback !in Frames(conf, n)
  {
    if n > 0 {
      FramesCount(conf, n - 1);
      var a, f := Frames(conf, n - 1), Frame(conf);
      var cb: seq<Call> := if conf.frameCb then [FrameCallback] else [];
      assert f == cb + [PollEvents];
      CountConcat(a, f, PollEvents);
      CountConcat(a, f, FrameCallback);
      CountConcat(cb, [PollEvents], PollEvents);
      CountConcat(cb, [PollEvents], FrameCallback);
      CountSingle(PollEvents, PollEvents);
      CountSingle(PollEvents, FrameCallback);
      if conf.frameCb {
        CountSingle(FrameCallback, FrameCallback);
        CountSingle(FrameCallback, PollEvents);
      }
    }
  }

  /** Every frame callback is immediately followed by that pass's poll. */
  lemma {:induction false} FramesPollAfterFrame(conf: Conf, n: nat)
    ensures forall i :: 0 <= i < |Frames(conf, n)| && Frames(conf, n)[i] == FrameCallback ==>
      i + 1 < |Frames(conf, n)| && Frames(conf, n)[i + 1] == PollEvents
  {
    if n > 0 {
      FramesPollAfterFrame(conf, n - 1);
      var a, f := Frames(conf, n - 1), Frame(conf);
      forall i | 0 <= i < |a + f| && (a + f)[i] == FrameCallback
        ensures i + 1 < |a + f| && (a + f)[i + 1] == PollEvents
      {
        if i >= |a| {
          assert f[i - |a|] == FrameCallback;
        }
      }
    }
  }

  lemma {:induction false} FramesOnlyLoop(conf: Conf, n: nat)
    ensures forall i :: 0 <= i < |Frames(conf, n)| ==> Frames(conf, n)[i] == FrameCallback || Frames(conf, n)[i] == PollEvents
  {
    if n > 0 {
      FramesOnlyLoop(conf, n - 1);
      assert Frames(conf, n) == Frames(conf, n - 1) + Frame(conf);
    }
  }

  lemma TeardownCount(conf: Conf, h: nat)
    ensures Count(Teardown(conf, h), CleanupCallback) == if conf.cleanupCb then 1 else 0
    ensures Count(Teardown(conf, h), DestroyWindow(h)) == 1
    ensures Count(Teardown(conf, h), PollEvents) == 0
  {
    var cb: seq<Call> := if conf.cleanupCb then [CleanupCallback] else [];
    var last := [Terminate, FreeWindow, LogLine(Log.Success, ShutDown)];
    assert Teardown(conf, h) == (cb + [DestroyWindow(h)]) + last;
    CountZero(last, CleanupCallback);
    CountZero(last, DestroyWindow(h));
    CountZero(last, PollEvents);
    CountZero(cb, DestroyWindow(h));
    CountZero(cb, PollEvents);
    CountConcat(cb + [DestroyWindow(h)], last, CleanupCallback);
    CountConcat(cb + [DestroyWindow(h)], last, DestroyWindow(h));
    CountConcat(cb + [DestroyWindow(h)], last, PollEvents);
    CountConcat(cb, [DestroyWindow(h)], CleanupCallback);
    CountConcat(cb, [DestroyWindow(h)], DestroyWindow(h));
    CountConcat(cb, [DestroyWindow(h)], PollEvents);
    CountSingle(DestroyWindow(h), CleanupCallback);
    CountSingle(DestroyWindow(h), DestroyWindow(h));
    CountSingle(DestroyWindow(h), PollEvents);
    if conf.cleanupCb {
      CountSingle(CleanupCallback, CleanupCallback);
    }
  }

  /** A run calls the cleanup callback exactly once when one is configured and never
      otherwise, right before the window is destroyed, destroys the window once, and polls once
      per frame. */
  lemma RunCleansUpOnce(conf: Conf, h: nat, frames: nat)
    ensures var e := Frames(conf, frames) + Teardown(conf, h);
      && Count(e, CleanupCallback) == (if conf.cleanupCb then 1 else 0)
      && Count(e, PollEvents) == frames
      && Count(e, DestroyWindow(h)) == 1
      && (conf.cleanupCb ==>
            e[|Frames(conf, frames)|] == CleanupCallback && e[|Frames(conf, frames)| + 1] == DestroyWindow(h))
  {
    var a, b := Frames(conf, frames), Teardown(conf, h);
    FramesCount(conf, frames);
    FramesOnlyLoop(conf, frames);
    TeardownCount(conf, h);
    assert DestroyWindow(h) !in a;
    CountZero(a, DestroyWindow(h));
    CountZero(a, CleanupCallback);
    CountConcat(a, b, CleanupCallback);
    CountConcat(a, b, PollEvents);
    CountConcat(a, b, DestroyWindow(h));
  }

  // ---------------------------------------------------------------------------------------
  // The input callbacks
  // ---------------------------------------------------------------------------------------

  /** The event type a key action maps to. GLFW passes only press, release and repeat. */
  function KeyKind(action: int): (t: EventType)
    requires action == Press || action == Release || action == Repeat
    ensures t == KeyDown <==> action == Press
    ensures t == KeyUp <==> action == Release
    ensures t == KeyRepeat <==> action == Repeat
  {
    if action == Press then KeyDown else if action == Release then KeyUp else KeyRepeat
  }

  /** The key action an event type came from: the inverse of KeyKind. */
  function ActionOfKey(t: EventType): (a: int)
    requires t == KeyDown || t == KeyUp || t == KeyRepeat
  {
    match t
    case KeyDown => Press
    case KeyUp => Release
    case _ => Repeat
  }

  lemma KeyKindRoundTrip(action: int, t: EventType)
    requires action == Press || action == Release || action == Repeat
    requires t == KeyDown || t == KeyUp || t == KeyRepeat
    ensures ActionOfKey(KeyKind(action)) == action
    ensures KeyKind(ActionOfKey(t)) == t
  {
  }

  /** The event key_callback builds: the type from the action, and key, scancode, action and
      modifiers copied unchanged (the cast to the key-code enumeration keeps the value). */
  function KeyEvent(key: int, scancode: int, action: int, mods: int): (e: Event)
    requires action == Press || action == Release || action == Repeat
    ensures WellFormed(e)
    ensures e.kind == KeyKind(action)
    ensures e.payload == KeyInput(key, scancode, action, mods)
    ensures IsKeyCode(key) ==> IsKeyCode(e.payload.keyCode)
  {
    Event(KeyKind(action), KeyInput(key, scancode, action, mods))
  }

  /** The event mouse_callback builds: a press is a button-down, anything else a button-up;
      the cursor position is what glfwGetCursorPos reports. */
  function ButtonEvent(button: int, action: int, mods: int, cursorX: real, cursorY: real): (e: Event)
    ensures WellFormed(e)
    ensures e.kind == MouseDown <==> action == Press
    ensures e.kind == MouseUp <==> action != Press
    ensures e.payload == ButtonInput(button, action, mods, cursorX, cursorY)
    ensures MouseButtonOf(button).Some? ==> MouseCode(MouseButtonOf(e.payload.mouseCode).value) == button
  {
    Event(if action == Press then MouseDown else MouseUp, ButtonInput(button, action, mods, cursorX, cursorY))
  }

  function CursorEvent(x: real, y: real): (e: Event)
    ensures WellFormed(e)
  {
    Event(MouseMove, CursorInput(x, y))
  }

  function ScrollEvent(dx: real, dy: real): (e: Event)
    ensures WellFormed(e)
  {
    Event(MouseScroll, ScrollInput(dx, dy))
  }

  function ResizeEvent(width: int, height: int): (e: Event)
    ensures WellFormed(e)
  {
    Event(Resize, SizeInput(width, height))
  }

  /** Hands an event to the user's event callback, if one is configured; the configuration is
      the one stored as the window's user pointer. */
  function Dispatch(conf: Conf, app: App, e: Event): (r: App)
    ensures r.window == app.window
    ensures !conf.eventCb ==> r == app
    ensures conf.eventCb ==> r.trace == app.trace + [Deliver(e)]
  {
    if conf.eventCb then App(app.window, app.trace + [Deliver(e)]) else app
  }

  /** key_callback: with an event callback, exactly one event is delivered; its type follows
      the action and its key, scancode, action and modifiers are the ones GLFW passed. */
  function OnKey(conf: Conf, app: App, key: int, scancode: int, action: int, mods: int): (r: App)
    requires action == Press || action == Release || action == Repeat
    ensures r.window == app.window
    ensures !conf.eventCb ==> r == app
    ensures conf.eventCb ==>
      && |r.trace| == |app.trace| + 1 && r.trace[..|app.trace|] == app.trace
      && var d := r.trace[|app.trace|];
      && d.Deliver? && WellFormed(d.event)
      && d.event.kind == KeyKind(action) && ActionOfKey(d.event.kind) == action
      && d.event.payload == KeyInput(key, scancode, action, mods)
  {
    var r := Dispatch(conf, app, KeyEvent(key, scancode, action, mods));
    KeyKindRoundTrip(action, KeyKind(action));
    assert conf.eventCb ==> r.trace[..|app.trace|] == app.trace;
    r
  }

  /** mouse_callback: the delivered event is a button-down exactly when the action is a press,
      and carries the button, action, modifiers and the cursor position. */
  function OnButton(conf: Conf, app: App, button: int, action: int, mods: int, cursorX: real, cursorY: real): (r: App)
    ensures r.window == app.window
    ensures !conf.eventCb ==> r == app
    ensures conf.eventCb ==>
      && |r.trace| == |app.trace| + 1 && r.trace[..|app.trace|] == app.trace
      && var d := r.trace[|app.trace|];
      && d.Deliver? && WellFormed(d.event)
      && (d.event.kind == MouseDown <==> action == Press)
      && (d.event.kind == MouseUp <==> action != Press)
      && d.event.payload == ButtonInput(button, action, mods, cursorX, cursorY)
  {
    var r := Dispatch(conf, app, ButtonEvent(button, action, mods, cursorX, cursorY));
    assert conf.eventCb ==> r.trace[..|app.trace|] == app.trace;
    r
  }

  /** cursor_callback: one mouse-move event carrying the new position. */
  function OnCursor(conf: Conf, app: App, x: real, y: real): (r: App)
    ensures r.window == app.window
    ensures !conf.eventCb ==> r == app
    ensures conf.eventCb ==>
      && |r.trace| == |app.trace| + 1 && r.trace[..|app.trace|] == app.trace
      && r.trace[|app.trace|] == Deliver(Event(MouseMove, CursorInput(x, y)))
  {
    var r := Dispatch(conf, app, CursorEvent(x, y));
    assert conf.eventCb ==> r.trace[..|app.trace|] == app.trace;
    r
  }

  /** scroll_callback: one scroll event carrying both offsets. */
  function OnScroll(conf: Conf, app: App, dx: real, dy: real): (r: App)
    ensures r.window == app.window
    ensures !conf.eventCb ==> r == app
    ensures conf.eventCb ==>
      && |r.trace| == |app.trace| + 1 && r.trace[..|app.trace|] == app.trace
      && r.trace[|app.trace|] == Deliver(Event(MouseScroll, ScrollInput(dx, dy)))
  {
    var r := Dispatch(conf, app, ScrollEvent(dx, dy));
    assert conf.eventCb ==> r.trace[..|app.trace|] == app.trace;
    r
  }

  /** framebuffer_size_callback: the resize event (when an event callback is configured), then
      the viewport is set to the new size whether or not there is a callback. The window record
      keeps the size it was created at. */
  function OnResize(conf: Conf, app: App, width: int, height: int): (r: App)
    ensures r.window == app.window
    ensures app.trace <= r.trace
    ensures CurrentViewport(r.trace) == Some(Rect(0, 0, width, height))
    ensures r.trace[|app.trace|..] ==
      (if conf.eventCb then [Deliver(Event(Resize, SizeInput(width, height)))] else [])
      + [Viewport(Rect(0, 0, width, height))]
  {
    var d := Dispatch(conf, app, ResizeEvent(width, height));
    var t := d.trace + [Viewport(Rect(0, 0, width, height))];
    assert t[|app.trace|..] == (if conf.eventCb then [Deliver(ResizeEvent(width, height))] else []) + [Viewport(Rect(0, 0, width, height))];
    App(app.window, t)
  }

  // ---------------------------------------------------------------------------------------
  // Window accessors
  // ---------------------------------------------------------------------------------------

  /** cr_get_width: the width stored in the window record, read without checking the record,
      so undefined while the record is NULL or freed. */
  function GetWidth(app: App): (r: Outcome<int>)
    ensures r.Undefined? <==> app.window.None?
    ensures app.window.Some? ==> r == Running(app.window.value.width)
  {
    if app.window.None? then Undefined else Running(app.window.value.width)
  }

  /** cr_get_height: the height stored in the window record, likewise unchecked. */
  function GetHeight(app: App): (r: Outcome<int>)
    ensures r.Undefined? <==> app.window.None?
    ensures app.window.Some? ==> r == Running(app.window.value.height)
  {
    if app.window.None? then Undefined else Running(app.window.value.height)
  }

  /** The size the accessors report is the size the window was created at, and a resize does
      not change it, even though the viewport follows the new size. */
  lemma {:induction false} SizeIsCreationSize(conf: Conf, p: Platform, width: int, height: int)
    requires p.initOk && p.allocOk && p.handle != 0
    ensures var app := Setup(conf, p).0.value;
      && GetWidth(app).Running? && GetHeight(app).Running?
      && (GetWidth(app).value, GetHeight(app).value) == WindowSize(conf, p)
      && CreateWindow(GetWidth(app).value, GetHeight(app).value, conf.title, conf.fullscreen, p.handle) in app.trace
      && var resized := OnResize(conf, app, width, height);
      && GetWidth(resized) == GetWidth(app) && GetHeight(resized) == GetHeight(app)
      && CurrentViewport(resized.trace) == Some(Rect(0, 0, width, height))
  {
    var r := Setup(conf, p);
    var w := SetupWindow(conf, p);
    assert CreateWindow(w.0.value.width, w.0.value.height, conf.title, conf.fullscreen, p.handle) in w.1;
    assert r.1 == ([Init, LogLine(Log.Success, Initialized), SetErrorCallback] + Hints(conf)) + w.1 + Launch(conf, w.0.value);
  }

  /** cr_set_window_title as written: it reads the handle through the global record without
      checking the record itself, so before setup (and after the run frees it) the call is
      undefined. */
  function SetTitleAsWritten(app: App, title: string): (r: Outcome<App>)
    ensures r.Undefined? <==> app.window.None?
    ensures app.window.Some? ==> r == Running(SetTitle(app, title))
  {
    if app.window.None? then Undefined
    else Running(SetTitle(app, title))
  }

  /** cr_set_window_title with the record itself checked: with a live window the title is set
      and recorded; with no window, or one whose handle is null, an error is logged and nothing
      else changes. */
  function SetTitle(app: App, title: string): (r: App)
    ensures app.trace <= r.trace && |r.trace| > |app.trace|
    ensures app.window.Some? && app.window.value.handle != 0 ==>
      && r.window == Some(app.window.value.(title := title))
      && SetWindowTitle(app.window.value.handle, title) in r.trace[|app.trace|..]
      && r.trace[|r.trace| - 1] == LogLine(Log.Success, TitleUpdated)
      && r.trace == app.trace + [SetWindowTitle(app.window.value.handle, title), LogLine(Log.Success, TitleUpdated)]
    ensures app.window.None? || app.window.value.handle == 0 ==>
      r == App(app.window, app.trace + [LogLine(Log.Error, TitleFailed)])
  {
    if app.window.Some? && app.window.value.handle != 0 then
      var w := app.window.value;
      var e := [SetWindowTitle(w.handle, title), LogLine(Log.Success, TitleUpdated)];
      assert (app.trace + e)[|app.trace|..] == e;
      App(Some(w.(title := title)), app.trace + e)
    else
      App(app.window, app.trace + [LogLine(Log.Error, TitleFailed)])
  }

  /** cr_set_window_should_close as written: undefined before setup, like the title setter. */
  function SetShouldCloseAsWritten(app: App, flag: bool): (r: Outcome<App>)
    ensures r.Undefined? <==> app.window.None?
    ensures app.window.Some? ==> r == Running(SetShouldClose(app, flag))
  {
    if app.window.None? then Undefined
    else Running(SetShouldClose(app, flag))
  }

  /** cr_set_window_should_close with the record checked: with a live window the close flag
      becomes `flag`; otherwise an error is logged and the flag is left as it was. */
  function SetShouldClose(app: App, flag: bool): (r: App)
    ensures r.window == app.window && app.trace <= r.trace
    ensures app.window.Some? && app.window.value.handle != 0 ==> CloseRequested(r.trace) == flag
    ensures app.window.Some? && app.window.value.handle != 0 ==>
      r.trace == app.trace + [SetWindowShouldClose(app.window.value.handle, flag)]
    ensures app.window.None? || app.window.value.handle == 0 ==>
      && CloseRequested(r.trace) == CloseRequested(app.trace)
      && r.trace == app.trace + [LogLine(Log.Error, CloseFailed)]
  {
    if app.window.Some? && app.window.value.handle != 0 then
      var t := app.trace + [SetWindowShouldClose(app.window.value.handle, flag)];
      assert t[|t| - 1].flag == flag;
      App(app.window, t)
    else
      var t := app.trace + [LogLine(Log.Error, CloseFailed)];
      assert t[..|t| - 1] == app.trace;
      App(app.window, t)
  }

  /** Before setup the record is NULL: the setters as written have no defined behaviour, while
      the checked ones log an error and change nothing else. */
  lemma SettersBeforeSetup(title: string, flag: bool)
    ensures SetTitleAsWritten(App(None, []), title).Undefined?
    ensures SetShouldCloseAsWritten(App(None, []), flag).Undefined?
    ensures SetTitle(App(None, []), title) == App(None, [LogLine(Log.Error, TitleFailed)])
    ensures SetShouldClose(App(None, []), flag) == App(None, [LogLine(Log.Error, CloseFailed)])
    ensures !CloseRequested(SetShouldClose(App(None, []), flag).trace)
    ensures GetWidth(App(None, [])).Undefined? && GetHeight(App(None, [])).Undefined?
  {
  }

  /** The same holds after a run, which frees the record. */
  lemma {:induction false} SettersAfterRun(conf: Conf, app: App, frames: nat, title: string, flag: bool)
    requires app.window.Some?
    ensures var done := App(None, app.trace + Frames(conf, frames) + Teardown(conf, app.window.value.handle));
      && SetTitleAsWritten(done, title).Undefined?
      && SetShouldCloseAsWritten(done, flag).Undefined?
      && SetTitle(done, title).trace == done.trace + [LogLine(Log.Error, TitleFailed)]
      && GetWidth(done).Undefined? && GetHeight(done).Undefined?
  {
  }
}

=== FILE: gfx.dfy ===
/** The graphics registry: a process-wide store of shader programs, vertex/buffer bindings and
    pipelines, with the decisions it makes when clearing and drawing. Every OpenGL call is an
    entry of an append-only command trace; values only the driver knows are parameters:
    names handed out by the create and generate calls come from a counter of names issued so far (a fresh
    name is the counter plus one, never 0), and compile and link status are oracle flags. */
module Gfx {
  import opened Types
  import Log

  // ---------------------------------------------------------------------------------------
  // OpenGL enumerants used by the registry
  // ---------------------------------------------------------------------------------------

  const GlLess: nat := 0x0201
  const GlSrcAlpha: nat := 0x0302
  const GlOneMinusSrcAlpha: nat := 0x0303
  const GlOne: nat := 1
  const GlZero: nat := 0
  const GlTriangles: nat := 0x0004
  const GlUnsignedInt: nat := 0x1405

  const DepthBufferBit: bv32 := 0x0000_0100
  const StencilBufferBit: bv32 := 0x0000_0400
  const ColorBufferBit: bv32 := 0x0000_4000

  /** Size in bytes of one element index and of one position float. */
  const IndexSize := 4
  const FloatSize := 4

  /** size_t arithmetic wraps modulo 2^64. */
  const SizeModulus := 0x1_0000_0000_0000_0000

  datatype Capability = DepthTest | Blend

  datatype Stage = VertexStage | FragmentStage

  datatype Target = ArrayBuffer | ElementArrayBuffer

  datatype DrawCall =
    | DrawArrays(mode: nat, first: int, count: int)
    | DrawElements(mode: nat, count: int, indexType: nat, offset: nat)
    | DrawArraysInstanced(mode: nat, first: int, count: int, instances: int)
    | DrawElementsInstanced(mode: nat, count: int, indexType: nat, offset: nat, instances: int)
  {
    predicate Instanced()
    {
      DrawArraysInstanced? || DrawElementsInstanced?
    }

    predicate Indexed()
    {
      DrawElements? || DrawElementsInstanced?
    }
  }

  /** The lines the graphics module logs. */
  datatype Message = InitFailed | Initialized | ShutDown | LoadFailed | Loaded

  /** The text logged for each message. */
  function Text(m: Message): string
  {
    match m
    case InitFailed => "Failed to initialize [carrier graphics module]"
    case Initialized => "Successfully initialized [carrier graphics module]"
    case ShutDown => "Successfully shutdown [carrier graphics module]"
    case LoadFailed => "Failed to load shaders"
    case Loaded => "Successfully loaded shaders"
  }

  /** One OpenGL call, or one log line. */
  datatype Cmd =
    | Enable(cap: Capability)
    | Disable(cap: Capability)
    | DepthFunc(func: nat)
    | BlendFunc(src: nat, dst: nat)
    | PolygonMode(lines: bool)
    | ClearColor(color: Color)
    | ClearDepth(depth: real)
    | ClearStencil(stencil: int)
    | Clear(mask: bv32)
    | CreateShader(stage: Stage, name: nat)
    | ShaderSource(name: nat, source: string)
    | CompileShader(name: nat)
    | DeleteShader(name: nat)
    | CreateProgram(name: nat)
    | AttachShader(program: nat, shader: nat)
    | LinkProgram(name: nat)
    | DeleteProgram(name: nat)
    | GenVertexArray(name: nat)
    | GenBuffer(name: nat)
    | BindVertexArray(name: nat)
    | UseProgram(program: nat)
    | BindBuffer(target: Target, name: nat)
    | BufferData(target: Target, size: nat, data: Option<seq<bv8>>)
    | VertexAttribPointer(index: nat, components: nat, stride: nat)
    | EnableVertexAttribArray(index: nat)
    | DeleteVertexArray(name: nat)
    | DeleteBuffer(name: nat)
    | Draw(call: DrawCall)
    | LogLine(severity: Log.Severity, message: Message)
    | LogInfo(name: nat)   // the driver's info log of object `name`, logged as an error

  /** The driver as seen by the registry: every call made so far, and how many names it has
      handed out. */
  datatype Gl = Gl(trace: seq<Cmd>, issued: nat)

  datatype State = State(ctx: Context, gl: Gl)

  /** Appends commands to the trace; issues no name. */
  function Emit(gl: Gl, cmds: seq<Cmd>): Gl
  {
    gl.(trace := gl.trace + cmds)
  }

  /** The commands a state change added to the trace. */
  function Emitted(before: Gl, after: Gl): (e: seq<Cmd>)
    requires before.trace <= after.trace
    ensures after.trace == before.trace + e
  {
    after.trace[|before.trace|..]
  }

  /** The commands appended by a change are exactly what was emitted. */
  lemma EmittedAppend(before: Gl, after: Gl, e: seq<Cmd>)
    requires after.trace == before.trace + e
    ensures before.trace <= after.trace && Emitted(before, after) == e
  {
    assert after.trace[|before.trace|..] == e;
  }

  // ---------------------------------------------------------------------------------------
  // The driver state a trace leaves behind
  // ---------------------------------------------------------------------------------------

  /** A capability is on after `t` when some Enable of it is not followed by a Disable. */
  predicate IsEnabled(t: seq<Cmd>, cap: Capability)
  {
    exists i :: 0 <= i < |t| && t[i] == Enable(cap) && forall j :: i < j < |t| ==> t[j] != Disable(cap)
  }

  /** The depth comparison after `t` is `f` (OpenGL starts with LESS). */
  predicate DepthFuncIs(t: seq<Cmd>, f: nat)
  {
    || (exists i :: 0 <= i < |t| && t[i] == DepthFunc(f) && forall j :: i < j < |t| ==> !t[j].DepthFunc?)
    || (f == GlLess && forall j :: 0 <= j < |t| ==> !t[j].DepthFunc?)
  }

  /** The blend factors after `t` are (src, dst) (OpenGL starts with ONE, ZERO). */
  predicate BlendFuncIs(t: seq<Cmd>, src: nat, dst: nat)
  {
    || (exists i :: 0 <= i < |t| && t[i] == BlendFunc(src, dst) && forall j :: i < j < |t| ==> !t[j].BlendFunc?)
    || (src == GlOne && dst == GlZero && forall j :: 0 <= j < |t| ==> !t[j].BlendFunc?)
  }

  /** Polygons are drawn as outlines after `t` when the last polygon-mode call chose lines. */
  predicate DrawsLines(t: seq<Cmd>)
  {
    exists i :: 0 <= i < |t| && t[i] == PolygonMode(true) && forall j :: i < j < |t| ==> !t[j].PolygonMode?
  }

  // ---------------------------------------------------------------------------------------
  // Registry invariant
  // ---------------------------------------------------------------------------------------

  /** The program names in the shader registry, in registry order. */
  function ProgramNames(shaders: seq<Shader>): seq<int>
  {
    seq(|shaders|, i requires 0 <= i < |shaders| => shaders[i].program)
  }

  /** The vertex-array names in the binding registry, in registry order. */
  function ArrayNames(bs: seq<Bindings>): seq<int>
  {
    seq(|bs|, i requires 0 <= i < |bs| => bs[i].vao)
  }

  /** The buffer names a binding owns: its vertex buffer, and its index buffer when present. */
  function OwnedBuffers(b: Bindings): seq<int>
  {
    [b.vbo] + (if b.ebo != 0 then [b.ebo] else [])
  }

  function BufferNames(bs: seq<Bindings>): seq<int>
  {
    if |bs| == 0 then [] else BufferNames(bs[..|bs| - 1]) + OwnedBuffers(bs[|bs| - 1])
  }

  /** Nonzero names, none above the number issued. */
  predicate NamesBelow(s: seq<int>, bound: nat)
  {
    forall i :: 0 <= i < |s| ==> 0 < s[i] <= bound
  }

  /** Names issued by the driver, in the order they were issued. */
  predicate IssuedInOrder(s: seq<int>, bound: nat)
  {
    NamesBelow(s, bound) && Ascending(s)
  }

  /** Every list has its count, and every stored handle is a distinct name the driver handed
      out: failed creations never enter the lists. */
  predicate Valid(st: State)
  {
    && st.ctx.CountsAgree()
    && IssuedInOrder(ProgramNames(st.ctx.shaders), st.gl.issued)
    && IssuedInOrder(ArrayNames(st.ctx.bindings), st.gl.issued)
    && IssuedInOrder(BufferNames(st.ctx.bindings), st.gl.issued)
  }

  lemma IssuedInOrderAppend(s: seq<int>, bound: nat, xs: seq<int>, bound': nat)
    requires IssuedInOrder(s, bound)
    requires Ascending(xs) && NamesBelow(xs, bound')
    requires forall k :: 0 <= k < |xs| ==> bound < xs[k]
    requires bound <= bound'
    ensures IssuedInOrder(s + xs, bound')
  {
    if |s| > 0 && |xs| > 0 {
      assert s[|s| - 1] <= bound < xs[0];
    }
    AscendingConcat(s, xs);
  }

  lemma IssuedInOrderWeaken(s: seq<int>, bound: nat, bound': nat)
    requires IssuedInOrder(s, bound) && bound <= bound'
    ensures IssuedInOrder(s, bound')
  {
  }

  lemma BufferNamesAppend(bs: seq<Bindings>, b: Bindings)
    ensures BufferNames(bs + [b]) == BufferNames(bs) + OwnedBuffers(b)
  {
    assert (bs + [b])[..|bs|] == bs;
  }

  // ---------------------------------------------------------------------------------------
  // cg_setup
  // ---------------------------------------------------------------------------------------

  function DepthCmds(on: bool): seq<Cmd>
  {
    if on then [Enable(DepthTest), DepthFunc(GlLess)] else [Disable(DepthTest)]
  }

  function BlendCmds(on: bool): seq<Cmd>
  {
    if on then [Enable(Blend), BlendFunc(GlSrcAlpha, GlOneMinusSrcAlpha)] else [Disable(Blend)]
  }

  /** Initialises the bindings (fatal when `glewOk` is false), applies the depth and blend
      settings of `conf`, and empties the three registries. */
  function Setup(conf: GfxConf, glewOk: bool, gl: Gl): (r: Outcome<State>)
    ensures !glewOk ==> r == Exited(ExitFailure)
    ensures glewOk ==> r.Running?
    ensures r.Running? ==> r.value.ctx == EmptyContext && Valid(r.value)
    ensures r.Running? ==> gl.trace <= r.value.gl.trace && r.value.gl.issued == gl.issued
    ensures r.Running? ==>
      r.value.gl.trace == gl.trace + DepthCmds(conf.depthTest) + BlendCmds(conf.blend) + [LogLine(Log.Success, Initialized)]
  {
    if !glewOk then Exited(ExitFailure)
    else Running(State(EmptyContext, Emit(gl, DepthCmds(conf.depthTest) + BlendCmds(conf.blend) + [LogLine(Log.Success, Initialized)])))
  }

  lemma EnabledAfter(t: seq<Cmd>, cap: Capability, u: seq<Cmd>)
    requires Disable(cap) !in u
    ensures IsEnabled(t + [Enable(cap)] + u, cap)
  {
    var t' := t + [Enable(cap)] + u;
    assert t'[|t|] == Enable(cap);
    forall j | |t| < j < |t'|
      ensures t'[j] != Disable(cap)
    {
      assert t'[j] == u[j - |t| - 1];
    }
  }

  lemma DisabledAfter(t: seq<Cmd>, cap: Capability, u: seq<Cmd>)
    requires Enable(cap) !in u
    ensures !IsEnabled(t + [Disable(cap)] + u, cap)
  {
    var t' := t + [Disable(cap)] + u;
    forall i | 0 <= i < |t'| && t'[i] == Enable(cap)
      ensures exists j :: i < j < |t'| && t'[j] == Disable(cap)
    {
      assert t'[|t|] == Disable(cap);
    }
  }

  lemma DepthFuncAfter(t: seq<Cmd>, f: nat, u: seq<Cmd>)
    requires forall k :: 0 <= k < |u| ==> !u[k].DepthFunc?
    ensures DepthFuncIs(t + [DepthFunc(f)] + u, f)
  {
    var t' := t + [DepthFunc(f)] + u;
    assert t'[|t|] == DepthFunc(f);
    forall j | |t| < j < |t'|
      ensures !t'[j].DepthFunc?
    {
      assert t'[j] == u[j - |t| - 1];
    }
  }

  lemma BlendFuncAfter(t: seq<Cmd>, src: nat, dst: nat, u: seq<Cmd>)
    requires forall k :: 0 <= k < |u| ==> !u[k].BlendFunc?
    ensures BlendFuncIs(t + [BlendFunc(src, dst)] + u, src, dst)
  {
    var t' := t + [BlendFunc(src, dst)] + u;
    assert t'[|t|] == BlendFunc(src, dst);
    forall j | |t| < j < |t'|
      ensures !t'[j].BlendFunc?
    {
      assert t'[j] == u[j - |t| - 1];
    }
  }

  /** After a successful setup, depth testing is on exactly when configured, comparing with
      LESS, and blending is on exactly when configured, with source-alpha and
      one-minus-source-alpha factors. */
  lemma {:induction false} SetupConfiguresDriver(conf: GfxConf, gl: Gl)
    ensures Setup(conf, true, gl).Running?
    ensures var t := Setup(conf, true, gl).value.gl.trace;
      && (IsEnabled(t, DepthTest) <==> conf.depthTest)
      && (conf.depthTest ==> DepthFuncIs(t, GlLess))
      && (IsEnabled(t, Blend) <==> conf.blend)
      && (conf.blend ==> BlendFuncIs(t, GlSrcAlpha, GlOneMinusSrcAlpha))
  {
    SetupConfiguresDepth(conf, gl);
    SetupConfiguresBlend(conf, gl);
  }

  lemma {:induction false} SetupConfiguresDepth(conf: GfxConf, gl: Gl)
    ensures Setup(conf, true, gl).Running?
    ensures var t := Setup(conf, true, gl).value.gl.trace;
      && (IsEnabled(t, DepthTest) <==> conf.depthTest)
      && (conf.depthTest ==> DepthFuncIs(t, GlLess))
  {
    var t := Setup(conf, true, gl).value.gl.trace;
    var tail := BlendCmds(conf.blend) + [LogLine(Log.Success, Initialized)];
    assert t == gl.trace + DepthCmds(conf.depthTest) + tail;
    if conf.depthTest {
      assert t == gl.trace + [Enable(DepthTest)] + ([DepthFunc(GlLess)] + tail);
      EnabledAfter(gl.trace, DepthTest, [DepthFunc(GlLess)] + tail);
      assert t == gl.trace + [Enable(DepthTest)] + [DepthFunc(GlLess)] + tail;
      DepthFuncAfter(gl.trace + [Enable(DepthTest)], GlLess, tail);
    } else {
      assert t == gl.trace + [Disable(DepthTest)] + tail;
      DisabledAfter(gl.trace, DepthTest, tail);
    }
  }

  lemma {:induction false} SetupConfiguresBlend(conf: GfxConf, gl: Gl)
    ensures Setup(conf, true, gl).Running?
    ensures var t := Setup(conf, true, gl).value.gl.trace;
      && (IsEnabled(t, Blend) <==> conf.blend)
      && (conf.blend ==> BlendFuncIs(t, GlSrcAlpha, GlOneMinusSrcAlpha))
  {
    var log := [LogLine(Log.Success, Initialized)];
    var t := Setup(conf, true, gl).value.gl.trace;
    var head := gl.trace + DepthCmds(conf.depthTest);
    assert t == head + BlendCmds(conf.blend) + log;
    if conf.blend {
      assert t == head + [Enable(Blend)] + ([BlendFunc(GlSrcAlpha, GlOneMinusSrcAlpha)] + log);
      EnabledAfter(head, Blend, [BlendFunc(GlSrcAlpha, GlOneMinusSrcAlpha)] + log);
      assert t == head + [Enable(Blend)] + [BlendFunc(GlSrcAlpha, GlOneMinusSrcAlpha)] + log;
      BlendFuncAfter(head + [Enable(Blend)], GlSrcAlpha, GlOneMinusSrcAlpha, log);
    } else {
      assert t == head + [Disable(Blend)] + log;
      DisabledAfter(head, Blend, log);
    }
  }

  // ---------------------------------------------------------------------------------------
  // cg_begin_pass
  // ---------------------------------------------------------------------------------------

  /** Colour is always cleared; depth only when the pass asks for a depth in [0, 1], stencil
      only when it asks for a non-negative stencil value; no other bit is set. */
  function ClearMask(pa: PassAction): (m: bv32)
    ensures m & ColorBufferBit != 0
    ensures m & DepthBufferBit != 0 <==> 0.0 <= pa.clearDepth <= 1.0
    ensures m & StencilBufferBit != 0 <==> pa.clearStencil >= 0
    ensures m & !(ColorBufferBit | DepthBufferBit | StencilBufferBit) == 0
  {
    var withDepth := if 0.0 <= pa.clearDepth <= 1.0 then ColorBufferBit | DepthBufferBit else ColorBufferBit;
    if pa.clearStencil >= 0 then withDepth | StencilBufferBit else withDepth
  }

  /** Sets the clear colour, sets the clear values the pass opts in to, and clears with the
      pass's mask. Registries and names are untouched. */
  function BeginPass(st: State, pa: PassAction): (r: State)
    ensures r.ctx == st.ctx && r.gl.issued == st.gl.issued
    ensures st.gl.trace <= r.gl.trace
    ensures var e := Emitted(st.gl, r.gl);
      && |e| >= 2
      && e[0] == ClearColor(pa.clearColor)
      && e[|e| - 1] == Clear(ClearMask(pa))
      && (forall k :: 0 <= k < |e| - 1 ==> !e[k].Clear?)
      && (forall k :: 0 < k < |e| - 1 ==> e[k] == ClearDepth(pa.clearDepth) || e[k] == ClearStencil(pa.clearStencil))
      && (ClearDepth(pa.clearDepth) in e <==> 0.0 <= pa.clearDepth <= 1.0)
      && (ClearStencil(pa.clearStencil) in e <==> pa.clearStencil >= 0)
  {
    var gl := Emit(st.gl, PassCmds(pa));
    PassCmdsFacts(pa);
    EmittedAppend(st.gl, gl, PassCmds(pa));
    State(st.ctx, gl)
  }

  function PassCmds(pa: PassAction): seq<Cmd>
  {
    var depth := if 0.0 <= pa.clearDepth <= 1.0 then [ClearDepth(pa.clearDepth)] else [];
    var stencil := if pa.clearStencil >= 0 then [ClearStencil(pa.clearStencil)] else [];
    [ClearColor(pa.clearColor)] + depth + stencil + [Clear(ClearMask(pa))]
  }

  lemma PassCmdsFacts(pa: PassAction)
    ensures var e := PassCmds(pa);
      && |e| >= 2
      && e[0] == ClearColor(pa.clearColor)
      && e[|e| - 1] == Clear(ClearMask(pa))
      && (forall k :: 0 <= k < |e| - 1 ==> !e[k].Clear?)
      && (forall k :: 0 < k < |e| - 1 ==> e[k] == ClearDepth(pa.clearDepth) || e[k] == ClearStencil(pa.clearStencil))
      && (ClearDepth(pa.clearDepth) in e <==> 0.0 <= pa.clearDepth <= 1.0)
      && (ClearStencil(pa.clearStencil) in e <==> pa.clearStencil >= 0)
  {
  }

  // ---------------------------------------------------------------------------------------
  // cg_set_wireframe
  // ---------------------------------------------------------------------------------------

  /** The fill mode afterwards is the one asked for, whatever came before, so choosing the
      same mode twice leaves what choosing it once leaves. */
  function SetWireframe(st: State, enable: bool): (r: State)
    ensures r.ctx == st.ctx && r.gl.issued == st.gl.issued && st.gl.trace <= r.gl.trace
    ensures DrawsLines(r.gl.trace) <==> enable
    ensures r.gl.trace == st.gl.trace + [PolygonMode(enable)]
  {
    var t := st.gl.trace + [PolygonMode(enable)];
    assert t[|t| - 1] == PolygonMode(enable);
    State(st.ctx, Emit(st.gl, [PolygonMode(enable)]))
  }

  // ---------------------------------------------------------------------------------------
  // compile_shader and cg_load_shader
  // ---------------------------------------------------------------------------------------

  /** Which of the driver's checks a load passes. */
  datatype ShaderOracle = ShaderOracle(vertexCompiles: bool, fragmentCompiles: bool, links: bool)

  /** Every shader-stage object created in `e` is deleted in `e`. */
  ghost predicate StagesReleased(e: seq<Cmd>)
  {
    forall s, n :: CreateShader(s, n) in e ==> DeleteShader(n) in e
  }

  /** Every program object created in `e` is deleted in `e`. */
  ghost predicate ProgramsReleased(e: seq<Cmd>)
  {
    forall n :: CreateProgram(n) in e ==> DeleteProgram(n) in e
  }

  /** `e` neither creates nor deletes a program object. */
  ghost predicate NoPrograms(e: seq<Cmd>)
  {
    forall n :: CreateProgram(n) !in e && DeleteProgram(n) !in e
  }

  /** `e` creates no shader-stage object. */
  ghost predicate NoStages(e: seq<Cmd>)
  {
    forall s, n :: CreateShader(s, n) !in e
  }

  /** What compile_shader asks of the driver for the object `name`: create, upload, compile,
      and, when the compile fails, log the info log and delete the object. */
  function CompileCmds(name: nat, stage: Stage, source: string, compiles: bool): seq<Cmd>
  {
    [CreateShader(stage, name), ShaderSource(name, source), CompileShader(name)]
    + if compiles then [] else [LogInfo(name), DeleteShader(name)]
  }

  lemma CompileCmdsFacts(name: nat, stage: Stage, source: string, compiles: bool)
    ensures CreateShader(stage, name) in CompileCmds(name, stage, source, compiles)
    ensures DeleteShader(name) in CompileCmds(name, stage, source, compiles) <==> !compiles
    ensures forall s, n :: CreateShader(s, n) in CompileCmds(name, stage, source, compiles) ==> n == name
    ensures forall n :: DeleteShader(n) in CompileCmds(name, stage, source, compiles) ==> n == name
    ensures NoPrograms(CompileCmds(name, stage, source, compiles))
  {
  }

  /** compile_shader: returns the new shader object, or 0 when the compile fails. */
  function Compile(gl: Gl, stage: Stage, source: string, compiles: bool): (r: (nat, Gl))
    ensures r.0 != 0 <==> compiles
    ensures r.0 != 0 ==> r.0 == gl.issued + 1
    ensures r.1 == Gl(gl.trace + CompileCmds(gl.issued + 1, stage, source, compiles), gl.issued + 1)
  {
    var name := gl.issued + 1;
    (if compiles then name else 0, Gl(gl.trace + CompileCmds(name, stage, source, compiles), name))
  }

  /** Both stages are compiled, the vertex stage first, as objects `base + 1` and `base + 2`;
      the fragment stage is compiled even when the vertex stage failed. */
  function StageCmds(base: nat, vertexSource: string, fragmentSource: string, o: ShaderOracle): seq<Cmd>
  {
    CompileCmds(base + 1, VertexStage, vertexSource, o.vertexCompiles)
    + CompileCmds(base + 2, FragmentStage, fragmentSource, o.fragmentCompiles)
  }

  function CompileStages(gl: Gl, vertexSource: string, fragmentSource: string, o: ShaderOracle): (r: (nat, nat, Gl))
    ensures r.0 != 0 <==> o.vertexCompiles
    ensures r.1 != 0 <==> o.fragmentCompiles
    ensures r.0 != 0 ==> r.0 == gl.issued + 1
    ensures r.1 != 0 ==> r.1 == gl.issued + 2
    ensures r.2 == Gl(gl.trace + StageCmds(gl.issued, vertexSource, fragmentSource, o), gl.issued + 2)
  {
    var (v, gl1) := Compile(gl, VertexStage, vertexSource, o.vertexCompiles);
    var (f, gl2) := Compile(gl1, FragmentStage, fragmentSource, o.fragmentCompiles);
    (v, f, gl2)
  }

  /** What linking program `p` from stages `v` and `f` asks of the driver: create, attach,
      link, delete both stages, and on a failed link log the info log and delete the program. */
  function LinkCmds(p: nat, v: nat, f: nat, links: bool): seq<Cmd>
  {
    [CreateProgram(p), AttachShader(p, v), AttachShader(p, f), LinkProgram(p),
     DeleteShader(v), DeleteShader(f)]
    + if links then [LogLine(Log.Success, Loaded)] else [LogInfo(p), DeleteProgram(p)]
  }

  lemma LinkCmdsFacts(p: nat, v: nat, f: nat, links: bool)
    ensures DeleteShader(v) in LinkCmds(p, v, f, links) && DeleteShader(f) in LinkCmds(p, v, f, links)
    ensures NoStages(LinkCmds(p, v, f, links))
    ensures CreateProgram(p) in LinkCmds(p, v, f, links)
    ensures forall n :: CreateProgram(n) in LinkCmds(p, v, f, links) ==> n == p
    ensures DeleteProgram(p) in LinkCmds(p, v, f, links) <==> !links
  {
  }

  /** Links two compiled stages into a fresh program. A failed link returns program 0 and
      leaves the registry alone; a successful one appends the program to the shader registry. */
  function Link(st: State, v: nat, f: nat, links: bool): (r: (Shader, State))
    ensures r.0.program != 0 <==> links
    ensures r.0.program != 0 ==> r.0.program == st.gl.issued + 1
    ensures r.0.program == 0 ==> r.1.ctx == st.ctx
    ensures r.0.program != 0 ==> r.1.ctx == st.ctx.(shaders := st.ctx.shaders + [r.0], shaderCount := st.ctx.shaderCount + 1)
    ensures r.1.gl == Gl(st.gl.trace + LinkCmds(st.gl.issued + 1, v, f, links), st.gl.issued + 1)
  {
    var p := st.gl.issued + 1;
    var gl := Gl(st.gl.trace + LinkCmds(p, v, f, links), p);
    if links then
      (Shader(p), State(st.ctx.(shaders := st.ctx.shaders + [Shader(p)], shaderCount := st.ctx.shaderCount + 1), gl))
    else
      (Shader(0), State(st.ctx, gl))
  }

  /** Whether a load can succeed: both files were read, both stages compile, and the program links. */
  predicate LoadSucceeds(vertexSource: Option<string>, fragmentSource: Option<string>, o: ShaderOracle)
  {
    vertexSource.Some? && fragmentSource.Some? && o.vertexCompiles && o.fragmentCompiles && o.links
  }

  /** cg_load_shader as written. `vertexSource` and `fragmentSource` are what read_file returned
      for the two paths (None when the file could not be read). When exactly one stage fails to
      compile, the object of the stage that compiled is never deleted. */
  function LoadShaderAsWritten(st: State, vertexSource: Option<string>, fragmentSource: Option<string>, o: ShaderOracle): (r: (Shader, State))
    ensures r.0.program != 0 <==> LoadSucceeds(vertexSource, fragmentSource, o)
    ensures r.0.program == 0 ==> r.1.ctx == st.ctx
    ensures r.0.program != 0 ==> r.1.ctx == st.ctx.(shaders := st.ctx.shaders + [r.0], shaderCount := st.ctx.shaderCount + 1)
    ensures st.gl.trace <= r.1.gl.trace && st.gl.issued <= r.1.gl.issued
  {
    if vertexSource.None? || fragmentSource.None? then
      (Shader(0), State(st.ctx, Emit(st.gl, [LogLine(Log.Error, LoadFailed)])))
    else
      var (v, f, gl1) := CompileStages(st.gl, vertexSource.value, fragmentSource.value, o);
      if v == 0 || f == 0 then (Shader(0), State(st.ctx, gl1))
      else Link(State(st.ctx, gl1), v, f, o.links)
  }

  /** The source as written leaks a shader object: with both files read, a vertex stage that
      fails and a fragment stage that compiles, the fragment object is created and never deleted. */
  lemma LoadShaderAsWrittenLeaksStage(st: State, vertexSource: string, fragmentSource: string)
    ensures var o := ShaderOracle(false, true, true);
      var r := LoadShaderAsWritten(st, Some(vertexSource), Some(fragmentSource), o);
      && r.0.program == 0
      && st.gl.trace <= r.1.gl.trace
      && CreateShader(FragmentStage, st.gl.issued + 2) in Emitted(st.gl, r.1.gl)
      && DeleteShader(st.gl.issued + 2) !in Emitted(st.gl, r.1.gl)
      && !StagesReleased(Emitted(st.gl, r.1.gl))
  {
    var o := ShaderOracle(false, true, true);
    var r := LoadShaderAsWritten(st, Some(vertexSource), Some(fragmentSource), o);
    var e := StageCmds(st.gl.issued, vertexSource, fragmentSource, o);
    assert Emitted(st.gl, r.1.gl) == e;
    var ev := CompileCmds(st.gl.issued + 1, VertexStage, vertexSource, false);
    var ef := CompileCmds(st.gl.issued + 2, FragmentStage, fragmentSource, true);
    assert e == ev + ef;
    assert DeleteShader(st.gl.issued + 2) !in ev;
    assert DeleteShader(st.gl.issued + 2) !in ef;
  }

  /** The stage objects a failed compile leaves alive, released. */
  function ReleaseStages(v: nat, f: nat): seq<Cmd>
  {
    (if v != 0 then [DeleteShader(v)] else []) + (if f != 0 then [DeleteShader(f)] else [])
  }

  lemma ReleaseStagesFacts(v: nat, f: nat)
    ensures v != 0 ==> DeleteShader(v) in ReleaseStages(v, f)
    ensures f != 0 ==> DeleteShader(f) in ReleaseStages(v, f)
    ensures NoStages(ReleaseStages(v, f)) && NoPrograms(ReleaseStages(v, f))
  {
  }

  lemma FailedCompileReleases(base: nat, vs: string, fs: string, o: ShaderOracle)
    requires !o.vertexCompiles || !o.fragmentCompiles
    ensures var v := if o.vertexCompiles then base + 1 else 0;
      var f := if o.fragmentCompiles then base + 2 else 0;
      var e := StageCmds(base, vs, fs, o) + ReleaseStages(v, f);
      StagesReleased(e) && ProgramsReleased(e)
  {
    var v := if o.vertexCompiles then base + 1 else 0;
    var f := if o.fragmentCompiles then base + 2 else 0;
    var ev := CompileCmds(base + 1, VertexStage, vs, o.vertexCompiles);
    var ef := CompileCmds(base + 2, FragmentStage, fs, o.fragmentCompiles);
    var rel := ReleaseStages(v, f);
    CompileCmdsFacts(base + 1, VertexStage, vs, o.vertexCompiles);
    CompileCmdsFacts(base + 2, FragmentStage, fs, o.fragmentCompiles);
    ReleaseStagesFacts(v, f);
    assert StageCmds(base, vs, fs, o) + rel == ev + ef + rel;
    forall s, n | CreateShader(s, n) in ev + ef + rel
      ensures DeleteShader(n) in ev + ef + rel
    {
      if CreateShader(s, n) in ev {
        assert n == base + 1;
      } else {
        assert CreateShader(s, n) in ef;
        assert n == base + 2;
      }
    }
  }

  lemma LinkReleases(base: nat, vs: string, fs: string, o: ShaderOracle)
    requires o.vertexCompiles && o.fragmentCompiles
    ensures var e := StageCmds(base, vs, fs, o) + LinkCmds(base + 3, base + 1, base + 2, o.links);
      && StagesReleased(e)
      && (!o.links ==> ProgramsReleased(e))
      && (o.links ==> CreateProgram(base + 3) in e && DeleteProgram(base + 3) !in e)
  {
    var ev := CompileCmds(base + 1, VertexStage, vs, true);
    var ef := CompileCmds(base + 2, FragmentStage, fs, true);
    var el := LinkCmds(base + 3, base + 1, base + 2, o.links);
    CompileCmdsFacts(base + 1, VertexStage, vs, true);
    CompileCmdsFacts(base + 2, FragmentStage, fs, true);
    LinkCmdsFacts(base + 3, base + 1, base + 2, o.links);
    assert StageCmds(base, vs, fs, o) + el == ev + ef + el;
    forall s, n | CreateShader(s, n) in ev + ef + el
      ensures DeleteShader(n) in ev + ef + el
    {
      if CreateShader(s, n) in ev {
        assert n == base + 1;
      } else {
        assert CreateShader(s, n) in ef;
        assert n == base + 2;
      }
    }
  }

  /** What the corrected cg_load_shader asks of the driver, from `base` on: with a file
      unread, only the error; otherwise both compiles, then either the release of the
      stages that compiled or the link. */
  function LoadCmds(base: nat, vertexSource: Option<string>, fragmentSource: Option<string>, o: ShaderOracle): seq<Cmd>
  {
    if vertexSource.None? || fragmentSource.None? then [LogLine(Log.Error, LoadFailed)]
    else
      var stages := StageCmds(base, vertexSource.value, fragmentSource.value, o);
      if !o.vertexCompiles || !o.fragmentCompiles then
        stages + ReleaseStages(if o.vertexCompiles then base + 1 else 0, if o.fragmentCompiles then base + 2 else 0)
      else
        stages + LinkCmds(base + 3, base + 1, base + 2, o.links)
  }

  /** No shader-stage object outlives a load, and no program does unless the load succeeds, in
      which case program `base + 3` does. */
  lemma LoadCmdsRelease(base: nat, vertexSource: Option<string>, fragmentSource: Option<string>, o: ShaderOracle)
    ensures StagesReleased(LoadCmds(base, vertexSource, fragmentSource, o))
    ensures !LoadSucceeds(vertexSource, fragmentSource, o) ==> ProgramsReleased(LoadCmds(base, vertexSource, fragmentSource, o))
    ensures LoadSucceeds(vertexSource, fragmentSource, o) ==>
      CreateProgram(base + 3) in LoadCmds(base, vertexSource, fragmentSource, o) && DeleteProgram(base + 3) !in LoadCmds(base, vertexSource, fragmentSource, o)
  {
    if vertexSource.None? || fragmentSource.None? {
    } else if !o.vertexCompiles || !o.fragmentCompiles {
      FailedCompileReleases(base, vertexSource.value, fragmentSource.value, o);
    } else {
      LinkReleases(base, vertexSource.value, fragmentSource.value, o);
    }
  }

  /** cg_load_shader with the stage that did compile deleted when the other one fails. Program 0
      is returned, and the registry left as it was, on every failure path: an unreadable file,
      a stage that does not compile, or a failed link (which deletes the program). On success
      the new program is fresh, is appended to the shader registry and nothing else changes.
      Either way no shader-stage object outlives the call. */
  function LoadShader(st: State, vertexSource: Option<string>, fragmentSource: Option<string>, o: ShaderOracle): (r: (Shader, State))
    ensures r.0.program != 0 <==> LoadSucceeds(vertexSource, fragmentSource, o)
    ensures r.0.program == 0 ==> r.1.ctx == st.ctx
    ensures r.0.program != 0 ==> r.1.ctx == st.ctx.(shaders := st.ctx.shaders + [r.0], shaderCount := st.ctx.shaderCount + 1)
    ensures r.0.program != 0 ==> r.0.program == st.gl.issued + 3 == r.1.gl.issued
    ensures st.gl.issued <= r.1.gl.issued
    ensures vertexSource.None? || fragmentSource.None? ==> r.1.gl.issued == st.gl.issued
    ensures r.1.gl.trace == st.gl.trace + LoadCmds(st.gl.issued, vertexSource, fragmentSource, o)
  {
    if vertexSource.None? || fragmentSource.None? then
      (Shader(0), State(st.ctx, Emit(st.gl, [LogLine(Log.Error, LoadFailed)])))
    else
      var (v, f, gl1) := CompileStages(st.gl, vertexSource.value, fragmentSource.value, o);
      if v == 0 || f == 0 then
        (Shader(0), State(st.ctx, Emit(gl1, ReleaseStages(v, f))))
      else
        Link(State(st.ctx, gl1), v, f, o.links)
  }

  /** No shader-stage object outlives a call of the corrected load, and no program object
      does unless the load returns it. */
  lemma LoadShaderReleases(st: State, vertexSource: Option<string>, fragmentSource: Option<string>, o: ShaderOracle)
    ensures var r := LoadShader(st, vertexSource, fragmentSource, o);
      && st.gl.trace <= r.1.gl.trace
      && StagesReleased(Emitted(st.gl, r.1.gl))
      && (r.0.program == 0 ==> ProgramsReleased(Emitted(st.gl, r.1.gl)))
      && (r.0.program != 0 ==> CreateProgram(r.0.program) in Emitted(st.gl, r.1.gl)
                               && DeleteProgram(r.0.program) !in Emitted(st.gl, r.1.gl))
  {
    var r := LoadShader(st, vertexSource, fragmentSource, o);
    var e := LoadCmds(st.gl.issued, vertexSource, fragmentSource, o);
    LoadCmdsRelease(st.gl.issued, vertexSource, fragmentSource, o);
    assert r.0.program != 0 ==> r.0.program == st.gl.issued + 3 && LoadSucceeds(vertexSource, fragmentSource, o);
    ReleasedAfter(st.gl, r.1.gl, e, r.0.program);
  }

  /** What a command list releases carries over to the change that appended it. */
  lemma ReleasedAfter(before: Gl, after: Gl, e: seq<Cmd>, program: nat)
    requires after.trace == before.trace + e
    requires StagesReleased(e)
    requires program == 0 ==> ProgramsReleased(e)
    requires program != 0 ==> CreateProgram(program) in e && DeleteProgram(program) !in e
    ensures before.trace <= after.trace
    ensures StagesReleased(Emitted(before, after))
    ensures program == 0 ==> ProgramsReleased(Emitted(before, after))
    ensures program != 0 ==> CreateProgram(program) in Emitted(before, after) && DeleteProgram(program) !in Emitted(before, after)
  {
    EmittedAppend(before, after, e);
  }

  // ---------------------------------------------------------------------------------------
  // cg_make_buffer
  // ---------------------------------------------------------------------------------------

  /** Creates a vertex array and a vertex buffer, uploads the vertices as three floats per
      vertex at attribute 0, and, only when the index data pointer is non-null, creates and
      uploads an index buffer; otherwise the binding's index buffer is the sentinel 0. The
      binding is appended to the binding registry and returned. */
  function MakeBuffer(st: State, conf: BufferConf): (r: (Bindings, State))
    ensures r.0.ebo == 0 <==> conf.indexBuffer.data.None?
    ensures st.gl.issued < r.0.vao < r.0.vbo && r.0.vbo <= r.1.gl.issued
    ensures r.0.ebo != 0 ==> r.0.vbo < r.0.ebo <= r.1.gl.issued
    ensures r.1.ctx == st.ctx.(bindings := st.ctx.bindings + [r.0], bindingCount := st.ctx.bindingCount + 1)
    ensures r.1.gl.trace == st.gl.trace + BufferCmds(st.gl.issued, conf)
    ensures st.gl.trace <= r.1.gl.trace
    ensures var e := Emitted(st.gl, r.1.gl);
      && BufferData(ArrayBuffer, conf.vertexBuffer.size, conf.vertexBuffer.data) in e
      && VertexAttribPointer(0, 3, 3 * FloatSize) in e
      && ((exists i :: 0 <= i < |e| && e[i].BufferData? && e[i].target == ElementArrayBuffer)
          <==> conf.indexBuffer.data.Some?)
      && e[|e| - 1] == BindVertexArray(0)
  {
    var vao := st.gl.issued + 1;
    var vbo := st.gl.issued + 2;
    var ebo := if conf.indexBuffer.data.Some? then st.gl.issued + 3 else 0;
    var issued := if conf.indexBuffer.data.Some? then st.gl.issued + 3 else st.gl.issued + 2;
    var cmds := BufferCmds(st.gl.issued, conf);
    var gl := Gl(st.gl.trace + cmds, issued);
    BufferCmdsFacts(st.gl.issued, conf);
    EmittedAppend(st.gl, gl, cmds);
    var b := Bindings(vao, vbo, ebo);
    (b, State(st.ctx.(bindings := st.ctx.bindings + [b], bindingCount := st.ctx.bindingCount + 1), gl))
  }

  /** The driver calls of cg_make_buffer when the names after `base` are free. */
  function BufferCmds(base: nat, conf: BufferConf): seq<Cmd>
  {
    var vertex := [GenVertexArray(base + 1), GenBuffer(base + 2), BindVertexArray(base + 1),
                   BindBuffer(ArrayBuffer, base + 2),
                   BufferData(ArrayBuffer, conf.vertexBuffer.size, conf.vertexBuffer.data),
                   VertexAttribPointer(0, 3, 3 * FloatSize), EnableVertexAttribArray(0)];
    var index := if conf.indexBuffer.data.Some? then
        [GenBuffer(base + 3), BindBuffer(ElementArrayBuffer, base + 3),
         BufferData(ElementArrayBuffer, conf.indexBuffer.size, conf.indexBuffer.data)]
      else [];
    vertex + index + [BindBuffer(ArrayBuffer, 0), BindVertexArray(0)]
  }

  lemma BufferCmdsFacts(base: nat, conf: BufferConf)
    ensures var e := BufferCmds(base, conf);
      && BufferData(ArrayBuffer, conf.vertexBuffer.size, conf.vertexBuffer.data) in e
      && VertexAttribPointer(0, 3, 3 * FloatSize) in e
      && ((exists i :: 0 <= i < |e| && e[i].BufferData? && e[i].target == ElementArrayBuffer)
          <==> conf.indexBuffer.data.Some?)
      && e[|e| - 1] == BindVertexArray(0)
  {
    var e := BufferCmds(base, conf);
    assert e[4] == BufferData(ArrayBuffer, conf.vertexBuffer.size, conf.vertexBuffer.data);
    assert conf.indexBuffer.data.Some? ==> e[9].BufferData? && e[9].target == ElementArrayBuffer;
  }

  // ---------------------------------------------------------------------------------------
  // cg_make_pipeline
  // ---------------------------------------------------------------------------------------

  /** Copies the configuration into a pipeline and appends it to the pipeline registry; no
      driver call is made. */
  function MakePipeline(st: State, conf: PipelineConf): (r: (Pipeline, State))
    ensures r.0.shader == conf.shader && r.0.primitiveType == conf.primitiveType
    ensures r.1.ctx == st.ctx.(pipelines := st.ctx.pipelines + [r.0], pipelineCount := st.ctx.pipelineCount + 1)
    ensures r.1.gl == st.gl
  {
    var p := PipelineOf(conf);
    (p, State(st.ctx.(pipelines := st.ctx.pipelines + [p], pipelineCount := st.ctx.pipelineCount + 1), st.gl))
  }

  // ---------------------------------------------------------------------------------------
  // cg_render
  // ---------------------------------------------------------------------------------------

  /** The byte offset of element `base` in the index buffer: base * sizeof(unsigned int),
      computed in size_t, so a negative base wraps around. */
  function IndexOffset(base: int): (r: nat)
    ensures r < SizeModulus && r % IndexSize == 0
    ensures 0 <= base && base * IndexSize < SizeModulus ==> r == base * IndexSize
    ensures (r - base * IndexSize) % SizeModulus == 0
  {
    (base * IndexSize) % SizeModulus
  }

  /** The draw call issued for a binding: instanced exactly when more than one instance is
      asked for, indexed exactly when the binding has an index buffer, always as triangles —
      the applied pipeline's primitive type is never consulted. */
  function Render(b: Bindings, base: int, count: int, instances: int): (d: DrawCall)
    ensures d.Instanced() <==> instances > 1
    ensures d.Indexed() <==> b.ebo != 0
    ensures d.mode == GlTriangles && d.count == count
    ensures d.Instanced() ==> d.instances == instances
    ensures d.Indexed() ==> d.indexType == GlUnsignedInt && d.offset == IndexOffset(base)
    ensures !d.Indexed() ==> d.first == base
  {
    if instances > 1 then
      if b.ebo != 0 then DrawElementsInstanced(GlTriangles, count, GlUnsignedInt, IndexOffset(base), instances)
      else DrawArraysInstanced(GlTriangles, base, count, instances)
    else
      if b.ebo != 0 then DrawElements(GlTriangles, count, GlUnsignedInt, IndexOffset(base))
      else DrawArrays(GlTriangles, base, count)
  }

  // ---------------------------------------------------------------------------------------
  // cg_apply_pipeline, cg_apply_bindings and cg_end_pass
  // ---------------------------------------------------------------------------------------

  /** The vertex array bound after `t`: the one named by the last bind, 0 before any. */
  function BoundArray(t: seq<Cmd>): nat
  {
    if |t| == 0 then 0
    else if t[|t| - 1].BindVertexArray? then t[|t| - 1].name
    else BoundArray(t[..|t| - 1])
  }

  /** The program in use after `t`: the one named by the last use, 0 before any. */
  function BoundProgram(t: seq<Cmd>): nat
  {
    if |t| == 0 then 0
    else if t[|t| - 1].UseProgram? then t[|t| - 1].program
    else BoundProgram(t[..|t| - 1])
  }

  /** Makes the pipeline's program current; the bound vertex array is untouched. */
  function ApplyPipeline(st: State, p: Pipeline): (r: State)
    ensures r.ctx == st.ctx && r.gl.issued == st.gl.issued && st.gl.trace <= r.gl.trace
    ensures BoundProgram(r.gl.trace) == p.shader.program
    ensures BoundArray(r.gl.trace) == BoundArray(st.gl.trace)
    ensures r.gl.trace == st.gl.trace + [UseProgram(p.shader.program)]
  {
    var r := State(st.ctx, Emit(st.gl, [UseProgram(p.shader.program)]));
    assert r.gl.trace[..|r.gl.trace| - 1] == st.gl.trace;
    r
  }

  /** Binds the binding's vertex array; the program in use is untouched. */
  function ApplyBindings(st: State, b: Bindings): (r: State)
    ensures r.ctx == st.ctx && r.gl.issued == st.gl.issued && st.gl.trace <= r.gl.trace
    ensures BoundArray(r.gl.trace) == b.vao
    ensures BoundProgram(r.gl.trace) == BoundProgram(st.gl.trace)
    ensures r.gl.trace == st.gl.trace + [BindVertexArray(b.vao)]
  {
    var r := State(st.ctx, Emit(st.gl, [BindVertexArray(b.vao)]));
    assert r.gl.trace[..|r.gl.trace| - 1] == st.gl.trace;
    r
  }

  /** Ends a pass by unbinding both the vertex array and the program. */
  function EndPass(st: State): (r: State)
    ensures r.ctx == st.ctx && r.gl.issued == st.gl.issued && st.gl.trace <= r.gl.trace
    ensures BoundArray(r.gl.trace) == 0 && BoundProgram(r.gl.trace) == 0
    ensures r.gl.trace == st.gl.trace + [BindVertexArray(0), UseProgram(0)]
  {
    var r := State(st.ctx, Emit(st.gl, [BindVertexArray(0), UseProgram(0)]));
    assert r.gl.trace[..|r.gl.trace| - 1] == st.gl.trace + [BindVertexArray(0)];
    r
  }

  /** cg_make_buffer leaves no vertex array bound, so a later draw must apply its bindings. */
  lemma MakeBufferUnbinds(st: State, conf: BufferConf)
    ensures BoundArray(MakeBuffer(st, conf).1.gl.trace) == 0
  {
    var t := MakeBuffer(st, conf).1.gl.trace;
    assert t[|t| - 1] == Emitted(st.gl, MakeBuffer(st, conf).1.gl)[|t| - |st.gl.trace| - 1];
  }

  // ---------------------------------------------------------------------------------------
  // The registry invariant is kept by every operation that grows a registry
  // ---------------------------------------------------------------------------------------

  lemma ProgramNamesAppend(s: seq<Shader>, x: Shader)
    ensures ProgramNames(s + [x]) == ProgramNames(s) + [x.program]
  {
  }

  lemma ArrayNamesAppend(bs: seq<Bindings>, b: Bindings)
    ensures ArrayNames(bs + [b]) == ArrayNames(bs) + [b.vao]
  {
  }

  /** A successful load keeps the invariant and registers the new program exactly once. */
  lemma {:induction false} LoadShaderKeepsValid(st: State, vertexSource: Option<string>, fragmentSource: Option<string>, o: ShaderOracle)
    requires Valid(st)
    ensures var r := LoadShader(st, vertexSource, fragmentSource, o);
      && Valid(r.1)
      && (r.0.program != 0 ==> Count(ProgramNames(r.1.ctx.shaders), r.0.program) == 1)
  {
    var r := LoadShader(st, vertexSource, fragmentSource, o);
    IssuedInOrderWeaken(ProgramNames(st.ctx.shaders), st.gl.issued, r.1.gl.issued);
    IssuedInOrderWeaken(ArrayNames(st.ctx.bindings), st.gl.issued, r.1.gl.issued);
    IssuedInOrderWeaken(BufferNames(st.ctx.bindings), st.gl.issued, r.1.gl.issued);
    if r.0.program != 0 {
      ProgramNamesAppend(st.ctx.shaders, r.0);
      IssuedInOrderAppend(ProgramNames(st.ctx.shaders), st.gl.issued, [r.0.program], r.1.gl.issued);
      AscendingCountOne(ProgramNames(r.1.ctx.shaders), r.0.program);
    }
  }

  /** Both files were read but at least one stage failed to compile: the one path on which the
      load as written and the corrected load part ways. */
  predicate StageCompileFails(vertexSource: Option<string>, fragmentSource: Option<string>, o: ShaderOracle)
  {
    vertexSource.Some? && fragmentSource.Some? && (!o.vertexCompiles || !o.fragmentCompiles)
  }

  /** The leak is the only difference between the load as written and the corrected load: both
      return the same program and leave the same context and the same count of issued names.
      Off the failed-compile path the driver sees exactly the same commands; on it, the corrected
      load only appends the deletes of the stage objects that compiled. */
  lemma LoadShaderAsWrittenAgrees(st: State, vertexSource: Option<string>, fragmentSource: Option<string>, o: ShaderOracle)
    ensures var w := LoadShaderAsWritten(st, vertexSource, fragmentSource, o);
      var c := LoadShader(st, vertexSource, fragmentSource, o);
      && w.0 == c.0 && w.1.ctx == c.1.ctx && w.1.gl.issued == c.1.gl.issued
      && (!StageCompileFails(vertexSource, fragmentSource, o) ==> w.1.gl == c.1.gl)
      && (StageCompileFails(vertexSource, fragmentSource, o) ==>
            c.1.gl.trace == w.1.gl.trace + ReleaseStages(if o.vertexCompiles then st.gl.issued + 1 else 0,
                                                         if o.fragmentCompiles then st.gl.issued + 2 else 0))
  {
  }

  /** What the load as written releases. Off the failed-compile path it releases what the
      corrected load does: every stage object, and every program but a returned one. On that
      path it creates no program, and the stage that did compile is created and never deleted. */
  lemma LoadShaderAsWrittenReleases(st: State, vertexSource: Option<string>, fragmentSource: Option<string>, o: ShaderOracle)
    ensures var r := LoadShaderAsWritten(st, vertexSource, fragmentSource, o);
      var e := Emitted(st.gl, r.1.gl);
      && st.gl.trace <= r.1.gl.trace
      && (!StageCompileFails(vertexSource, fragmentSource, o) ==> StagesReleased(e))
      && (r.0.program == 0 ==> ProgramsReleased(e))
      && (r.0.program != 0 ==> CreateProgram(r.0.program) in e && DeleteProgram(r.0.program) !in e)
      && (StageCompileFails(vertexSource, fragmentSource, o) && o.vertexCompiles ==>
            CreateShader(VertexStage, st.gl.issued + 1) in e && DeleteShader(st.gl.issued + 1) !in e)
      && (StageCompileFails(vertexSource, fragmentSource, o) && o.fragmentCompiles ==>
            CreateShader(FragmentStage, st.gl.issued + 2) in e && DeleteShader(st.gl.issued + 2) !in e)
  {
    LoadShaderAsWrittenAgrees(st, vertexSource, fragmentSource, o);
    if StageCompileFails(vertexSource, fragmentSource, o) {
      AsWrittenCompileFailure(st, vertexSource.value, fragmentSource.value, o);
    } else {
      LoadShaderReleases(st, vertexSource, fragmentSource, o);
    }
  }

  /** On the failed-compile path the load as written emits exactly the two compiles. */
  lemma AsWrittenCompileFailure(st: State, vertexSource: string, fragmentSource: string, o: ShaderOracle)
    requires !o.vertexCompiles || !o.fragmentCompiles
    ensures var r := LoadShaderAsWritten(st, Some(vertexSource), Some(fragmentSource), o);
      var e := Emitted(st.gl, r.1.gl);
      && st.gl.trace <= r.1.gl.trace
      && r.0.program == 0
      && ProgramsReleased(e)
      && (o.vertexCompiles ==> CreateShader(VertexStage, st.gl.issued + 1) in e && DeleteShader(st.gl.issued + 1) !in e)
      && (o.fragmentCompiles ==> CreateShader(FragmentStage, st.gl.issued + 2) in e && DeleteShader(st.gl.issued + 2) !in e)
  {
    var r := LoadShaderAsWritten(st, Some(vertexSource), Some(fragmentSource), o);
    var ev := CompileCmds(st.gl.issued + 1, VertexStage, vertexSource, o.vertexCompiles);
    var ef := CompileCmds(st.gl.issued + 2, FragmentStage, fragmentSource, o.fragmentCompiles);
    EmittedAppend(st.gl, r.1.gl, ev + ef);
    CompileCmdsFacts(st.gl.issued + 1, VertexStage, vertexSource, o.vertexCompiles);
    CompileCmdsFacts(st.gl.issued + 2, FragmentStage, fragmentSource, o.fragmentCompiles);
  }

  /** So the load as written keeps the invariant too, and registers a new program exactly once:
      the leaked stage object is a driver name, not a context entry. */
  lemma {:induction false} LoadShaderAsWrittenKeepsValid(st: State, vertexSource: Option<string>, fragmentSource: Option<string>, o: ShaderOracle)
    requires Valid(st)
    ensures var r := LoadShaderAsWritten(st, vertexSource, fragmentSource, o);
      && Valid(r.1)
      && (r.0.program != 0 ==> Count(ProgramNames(r.1.ctx.shaders), r.0.program) == 1)
  {
    LoadShaderAsWrittenAgrees(st, vertexSource, fragmentSource, o);
    LoadShaderKeepsValid(st, vertexSource, fragmentSource, o);
  }

  /** Appending a binding whose names are fresh, ascending and issued keeps the invariant. */
  lemma {:induction false} AppendBindingKeepsValid(st: State, b: Bindings, st': State)
    requires Valid(st)
    requires st'.ctx == st.ctx.(bindings := st.ctx.bindings + [b], bindingCount := st.ctx.bindingCount + 1)
    requires st.gl.issued < b.vao < b.vbo <= st'.gl.issued
    requires b.ebo != 0 ==> b.vbo < b.ebo <= st'.gl.issued
    ensures Valid(st')
  {
    IssuedInOrderWeaken(ProgramNames(st.ctx.shaders), st.gl.issued, st'.gl.issued);
    ArrayNamesAppend(st.ctx.bindings, b);
    IssuedInOrderAppend(ArrayNames(st.ctx.bindings), st.gl.issued, [b.vao], st'.gl.issued);
    BufferNamesAppend(st.ctx.bindings, b);
    IssuedInOrderAppend(BufferNames(st.ctx.bindings), st.gl.issued, OwnedBuffers(b), st'.gl.issued);
  }

  /** Once the invariant holds, the last binding's names occur exactly once in the registry. */
  lemma {:induction false} LastBindingRegisteredOnce(st: State)
    requires Valid(st) && |st.ctx.bindings| > 0
    ensures var b := st.ctx.bindings[|st.ctx.bindings| - 1];
      && Count(ArrayNames(st.ctx.bindings), b.vao) == 1
      && Count(BufferNames(st.ctx.bindings), b.vbo) == 1
      && (b.ebo != 0 ==> Count(BufferNames(st.ctx.bindings), b.ebo) == 1)
      && Count(BufferNames(st.ctx.bindings), 0) == 0
  {
    var bs := st.ctx.bindings;
    var b := bs[|bs| - 1];
    var names := BufferNames(bs);
    assert ArrayNames(bs)[|bs| - 1] == b.vao;
    AscendingCountOne(ArrayNames(bs), b.vao);
    OwnedBuffersListed(bs, |bs| - 1);
    AscendingCountOne(names, b.vbo);
    if b.ebo != 0 {
      AscendingCountOne(names, b.ebo);
    }
    assert 0 !in names by {
      forall k | 0 <= k < |names| ensures names[k] != 0 {
      }
    }
    CountZero(names, 0);
  }

  /** cg_make_buffer keeps the invariant and registers each of the new names exactly once. */
  lemma MakeBufferKeepsValid(st: State, conf: BufferConf)
    requires Valid(st)
    ensures var r := MakeBuffer(st, conf);
      && Valid(r.1)
      && Count(ArrayNames(r.1.ctx.bindings), r.0.vao) == 1
      && Count(BufferNames(r.1.ctx.bindings), r.0.vbo) == 1
      && (r.0.ebo != 0 ==> Count(BufferNames(r.1.ctx.bindings), r.0.ebo) == 1)
      && Count(BufferNames(r.1.ctx.bindings), 0) == 0
  {
    var r := MakeBuffer(st, conf);
    AppendBindingKeepsValid(st, r.0, r.1);
    assert r.1.ctx.bindings[|r.1.ctx.bindings| - 1] == r.0;
    LastBindingRegisteredOnce(r.1);
  }

  /** cg_make_pipeline keeps the invariant: pipelines hold no driver name. */
  lemma MakePipelineKeepsValid(st: State, conf: PipelineConf)
    requires Valid(st)
    ensures Valid(MakePipeline(st, conf).1)
  {
  }

  // ---------------------------------------------------------------------------------------
  // cg_shutdown
  // ---------------------------------------------------------------------------------------

  /** The reference order of program deletions: every registered program, in registry order. */
  function ProgramReleases(shaders: seq<Shader>): seq<Cmd>
  {
    if |shaders| == 0 then []
    else ProgramReleases(shaders[..|shaders| - 1]) + [DeleteProgram(shaders[|shaders| - 1].program)]
  }

  /** One binding's release: its vertex array, its vertex buffer, and its index buffer only
      when it has one (the sentinel 0 is never passed to the driver). */
  function BindingRelease(b: Bindings): seq<Cmd>
  {
    [DeleteVertexArray(b.vao), DeleteBuffer(b.vbo)] + if b.ebo != 0 then [DeleteBuffer(b.ebo)] else []
  }

  function BindingReleases(bs: seq<Bindings>): seq<Cmd>
  {
    if |bs| == 0 then []
    else BindingReleases(bs[..|bs| - 1]) + BindingRelease(bs[|bs| - 1])
  }

  /** Everything cg_shutdown deletes: programs first, then bindings. */
  function Releases(ctx: Context): seq<Cmd>
  {
    ProgramReleases(ctx.shaders) + BindingReleases(ctx.bindings)
  }

  /** cg_shutdown: deletes the registered programs, then each binding's objects, then logs.
      The registries are freed but neither reset nor emptied, so the context must not be used
      again before the next setup; the model returns only the driver state. */
  method Shutdown(st: State) returns (gl: Gl)
    requires st.ctx.CountsAgree()
    ensures gl.issued == st.gl.issued
    ensures gl.trace == st.gl.trace + Releases(st.ctx) + [LogLine(Log.Success, ShutDown)]
  {
    var shaders, bindings := st.ctx.shaders, st.ctx.bindings;
    var t := st.gl.trace;
    var i := 0;
    while i < st.ctx.shaderCount
      invariant 0 <= i <= |shaders|
      invariant t == st.gl.trace + ProgramReleases(shaders[..i])
    {
      assert shaders[..i + 1][..i] == shaders[..i];
      t := t + [DeleteProgram(shaders[i].program)];
      i := i + 1;
    }
    assert shaders[..i] == shaders;
    var j := 0;
    while j < st.ctx.bindingCount
      invariant 0 <= j <= |bindings|
      invariant t == st.gl.trace + ProgramReleases(shaders) + BindingReleases(bindings[..j])
    {
      assert bindings[..j + 1][..j] == bindings[..j];
      var b := bindings[j];
      t := t + [DeleteVertexArray(b.vao), DeleteBuffer(b.vbo)];
      if b.ebo != 0 {
        t := t + [DeleteBuffer(b.ebo)];
      }
      j := j + 1;
    }
    assert bindings[..j] == bindings;
    gl := Gl(t + [LogLine(Log.Success, ShutDown)], st.gl.issued);
  }

  lemma {:induction false} ProgramReleaseCounts(s: seq<Shader>, n: nat)
    ensures Count(ProgramReleases(s), DeleteProgram(n)) == Count(ProgramNames(s), n)
    ensures DeleteVertexArray(n) !in ProgramReleases(s) && DeleteBuffer(n) !in ProgramReleases(s)
  {
    if |s| > 0 {
      var init, last := s[..|s| - 1], s[|s| - 1];
      assert init + [last] == s;
      ProgramReleaseCounts(init, n);
      ProgramNamesAppend(init, last);
      CountConcat(ProgramReleases(init), [DeleteProgram(last.program)], DeleteProgram(n));
      CountConcat(ProgramNames(init), [last.program], n);
      CountSingle(DeleteProgram(last.program), DeleteProgram(n));
      CountSingle(last.program, n);
    }
  }

  lemma BindingReleaseCount(b: Bindings, n: nat)
    ensures Count(BindingRelease(b), DeleteVertexArray(n)) == if b.vao == n then 1 else 0
    ensures Count(BindingRelease(b), DeleteBuffer(n)) == Count(OwnedBuffers(b), n)
    ensures DeleteProgram(n) !in BindingRelease(b)
  {
    var opt: seq<Cmd> := if b.ebo != 0 then [DeleteBuffer(b.ebo)] else [];
    var optName: seq<int> := if b.ebo != 0 then [b.ebo] else [];
    assert BindingRelease(b) == [DeleteVertexArray(b.vao)] + [DeleteBuffer(b.vbo)] + opt;
    assert OwnedBuffers(b) == [b.vbo] + optName;
    CountConcat([DeleteVertexArray(b.vao)] + [DeleteBuffer(b.vbo)], opt, DeleteVertexArray(n));
    CountConcat([DeleteVertexArray(b.vao)] + [DeleteBuffer(b.vbo)], opt, DeleteBuffer(n));
    CountConcat([DeleteVertexArray(b.vao)], [DeleteBuffer(b.vbo)], DeleteVertexArray(n));
    CountConcat([DeleteVertexArray(b.vao)], [DeleteBuffer(b.vbo)], DeleteBuffer(n));
    CountConcat([b.vbo], optName, n);
    CountSingle(DeleteVertexArray(b.vao), DeleteVertexArray(n));
    CountSingle(DeleteVertexArray(b.vao), DeleteBuffer(n));
    CountSingle(DeleteBuffer(b.vbo), DeleteVertexArray(n));
    CountSingle(DeleteBuffer(b.vbo), DeleteBuffer(n));
    CountSingle(b.vbo, n);
    if b.ebo != 0 {
      CountSingle(DeleteBuffer(b.ebo), DeleteVertexArray(n));
      CountSingle(DeleteBuffer(b.ebo), DeleteBuffer(n));
      CountSingle(b.ebo, n);
    }
  }

  lemma {:induction false} BindingReleaseCounts(bs: seq<Bindings>, n: nat)
    ensures Count(BindingReleases(bs), DeleteVertexArray(n)) == Count(ArrayNames(bs), n)
    ensures Count(BindingReleases(bs), DeleteBuffer(n)) == Count(BufferNames(bs), n)
    ensures DeleteProgram(n) !in BindingReleases(bs)
  {
    if |bs| > 0 {
      var init, last := bs[..|bs| - 1], bs[|bs| - 1];
      assert init + [last] == bs;
      BindingReleaseCounts(init, n);
      BindingReleaseCount(last, n);
      ArrayNamesAppend(init, last);
      CountConcat(ArrayNames(init), [last.vao], n);
      CountSingle(last.vao, n);
      CountConcat(BufferNames(init), OwnedBuffers(last), n);
      CountConcat(BindingReleases(init), BindingRelease(last), DeleteVertexArray(n));
      CountConcat(BindingReleases(init), BindingRelease(last), DeleteBuffer(n));
    }
  }

  /** Every buffer a registered binding owns is among the registry's buffer names. */
  lemma {:induction false} OwnedBuffersListed(bs: seq<Bindings>, i: nat)
    requires i < |bs|
    ensures bs[i].vbo in BufferNames(bs)
    ensures bs[i].ebo != 0 ==> bs[i].ebo in BufferNames(bs)
  {
    var init, last := bs[..|bs| - 1], bs[|bs| - 1];
    assert OwnedBuffers(last)[0] == last.vbo;
    assert last.ebo != 0 ==> OwnedBuffers(last)[1] == last.ebo;
    if i < |bs| - 1 {
      OwnedBuffersListed(init, i);
    }
  }

  /** With the registry invariant, shutdown deletes each registered program, vertex array,
      vertex buffer and index buffer exactly once, deletes nothing that is not registered,
      and never passes the sentinel 0 to the driver. */
  lemma {:induction false} ShutdownReleasesEachOnce(st: State)
    requires Valid(st)
    ensures var e := Releases(st.ctx);
      && (forall n: nat :: Count(e, DeleteProgram(n)) == Count(ProgramNames(st.ctx.shaders), n))
      && (forall n: nat :: Count(e, DeleteVertexArray(n)) == Count(ArrayNames(st.ctx.bindings), n))
      && (forall n: nat :: Count(e, DeleteBuffer(n)) == Count(BufferNames(st.ctx.bindings), n))
      && (forall i :: 0 <= i < |st.ctx.shaders| ==> Count(e, DeleteProgram(st.ctx.shaders[i].program)) == 1)
      && (forall i :: 0 <= i < |st.ctx.bindings| ==>
            && Count(e, DeleteVertexArray(st.ctx.bindings[i].vao)) == 1
            && Count(e, DeleteBuffer(st.ctx.bindings[i].vbo)) == 1
            && (st.ctx.bindings[i].ebo != 0 ==> Count(e, DeleteBuffer(st.ctx.bindings[i].ebo)) == 1))
      && Count(e, DeleteProgram(0)) == 0 && Count(e, DeleteVertexArray(0)) == 0 && Count(e, DeleteBuffer(0)) == 0
  {
    var e := Releases(st.ctx);
    var programs, arrays, buffers := ProgramNames(st.ctx.shaders), ArrayNames(st.ctx.bindings), BufferNames(st.ctx.bindings);
    forall n: nat
      ensures Count(e, DeleteProgram(n)) == Count(programs, n)
      ensures Count(e, DeleteVertexArray(n)) == Count(arrays, n)
      ensures Count(e, DeleteBuffer(n)) == Count(buffers, n)
    {
      ProgramReleaseCounts(st.ctx.shaders, n);
      BindingReleaseCounts(st.ctx.bindings, n);
      CountConcat(ProgramReleases(st.ctx.shaders), BindingReleases(st.ctx.bindings), DeleteProgram(n));
      CountConcat(ProgramReleases(st.ctx.shaders), BindingReleases(st.ctx.bindings), DeleteVertexArray(n));
      CountConcat(ProgramReleases(st.ctx.shaders), BindingReleases(st.ctx.bindings), DeleteBuffer(n));
      CountZero(ProgramReleases(st.ctx.shaders), DeleteVertexArray(n));
      CountZero(ProgramReleases(st.ctx.shaders), DeleteBuffer(n));
      CountZero(BindingReleases(st.ctx.bindings), DeleteProgram(n));
    }
    forall i | 0 <= i < |st.ctx.shaders|
      ensures Count(e, DeleteProgram(st.ctx.shaders[i].program)) == 1
    {
      assert programs[i] == st.ctx.shaders[i].program;
      AscendingCountOne(programs, st.ctx.shaders[i].program);
    }
    forall i | 0 <= i < |st.ctx.bindings|
      ensures Count(e, DeleteVertexArray(st.ctx.bindings[i].vao)) == 1
      ensures Count(e, DeleteBuffer(st.ctx.bindings[i].vbo)) == 1
      ensures st.ctx.bindings[i].ebo != 0 ==> Count(e, DeleteBuffer(st.ctx.bindings[i].ebo)) == 1
    {
      var b := st.ctx.bindings[i];
      assert arrays[i] == b.vao;
      AscendingCountOne(arrays, b.vao);
      OwnedBuffersListed(st.ctx.bindings, i);
      AscendingCountOne(buffers, b.vbo);
      if b.ebo != 0 {
        AscendingCountOne(buffers, b.ebo);
      }
    }
    assert 0 !in programs && 0 !in arrays && 0 !in buffers by {
      assert forall k :: 0 <= k < |programs| ==> programs[k] != 0;
      assert forall k :: 0 <= k < |arrays| ==> arrays[k] != 0;
      assert forall k :: 0 <= k < |buffers| ==> buffers[k] != 0;
    }
    CountZero(programs, 0);
    CountZero(arrays, 0);
    CountZero(buffers, 0);
  }
}

=== FILE: log.dfy ===
/** The message shaping of the logging helper: which colour a severity is printed in, and how
    a message is cut down to one bounded line. The timestamp and the write to the diagnostic
    stream are not modelled. */
module Log {

  /** clog_type. */
  datatype Severity = Error | Warning | Success

  datatype Colour = Red | Yellow | Cyan

  const Esc: char := '\U{1B}'

  /** The ANSI select-graphic-rendition sequence that switches the terminal to a colour. */
  function Escape(c: Colour): string
  {
    match c
    case Red => [Esc] + "[31m"
    case Yellow => [Esc] + "[33m"
    case Cyan => [Esc] + "[36m"
  }

  /** The sequence printed after the message to restore the terminal's colour. */
  const Reset: string := [Esc] + "[0m"

  /** Errors are red, warnings yellow, and everything else (the default branch) cyan. */
  function ColourOf(s: Severity): (c: Colour)
    ensures c == Red <==> s == Error
    ensures c == Yellow <==> s == Warning
    ensures c == Cyan <==> s != Error && s != Warning
  {
    match s
    case Error => Red
    case Warning => Yellow
    case _ => Cyan
  }

  /** A reader can tell the three severities apart by the escape sequence alone, and none of
      them is the reset sequence. */
  lemma SeveritiesDistinguishable(s1: Severity, s2: Severity)
    ensures Escape(ColourOf(s1)) == Escape(ColourOf(s2)) <==> s1 == s2
    ensures Escape(ColourOf(s1)) != Reset
  {
    var e1, e2 := Escape(ColourOf(s1)), Escape(ColourOf(s2));
    assert e1[3] == (match ColourOf(s1) case Red => '1' case Yellow => '3' case Cyan => '6');
    assert e2[3] == (match ColourOf(s2) case Red => '1' case Yellow => '3' case Cyan => '6');
    assert e1[2] != Reset[2];
  }

  /** A C string's characters: everything before the terminating NUL. */
  type CString = s: string | '\0' !in s

  /** Size of the message buffer, including the terminator. */
  const BufferSize := 256

  /** The longest message kept: one less than the buffer, leaving room for the terminator. */
  const MaxMessage := BufferSize - 1

  /** The position of the first `c` in `s`, or |s| when there is none (strchr). */
  function FirstIndexOf(s: string, c: char): (i: nat)
    ensures i <= |s|
    ensures forall j :: 0 <= j < i ==> s[j] != c
    ensures i < |s| ==> s[i] == c
    decreases |s|
  {
    if |s| == 0 then 0
    else if s[0] == c then 0
    else 1 + FirstIndexOf(s[1..], c)
  }

  /** The message as printed: at most 255 characters are copied, then everything from the first
      newline on is dropped. The result is a prefix of the message that ends only at the length
      limit, at a newline, or at the end of the message. */
  function Trim(message: CString): (r: CString)
    ensures |r| <= MaxMessage
    ensures '\n' !in r
    ensures r <= message
    ensures |r| < |message| ==> |r| == MaxMessage || message[|r|] == '\n'
    ensures |message| < BufferSize && '\n' !in message ==> r == message
  {
    var copied := if |message| <= MaxMessage then message else message[..MaxMessage];
    var r := copied[..FirstIndexOf(copied, '\n')];
    assert forall k :: 0 <= k < |r| ==> r[k] == copied[k] == message[k];
    r
  }

  /** Trimming is idempotent: a trimmed message is printed unchanged. */
  lemma TrimIdempotent(message: CString)
    ensures Trim(Trim(message)) == Trim(message)
  {
  }

  /** Trim is the only cut with its four properties: any prefix of at most 255 characters with
      no newline that stops only at the limit or at a newline is exactly Trim's result. */
  lemma TrimUnique(message: CString, r: string)
    requires r <= message && |r| <= MaxMessage && '\n' !in r
    requires |r| < |message| ==> |r| == MaxMessage || message[|r|] == '\n'
    ensures r == Trim(message)
  {
  }
}

=== FILE: types.dfy ===
/** Shared data model of the carrier shell: the application event taxonomy, the key and
    mouse-button code tables, and the record shapes the window manager and the graphics
    registry operate on. Native handles are natural numbers (0 is the null handle). */
module Types {

  datatype Option<T> = None | Some(value: T)

  /** What a fatal path leaves behind: the process keeps running with a new state, it
      exits with a status code, or it dereferences an invalid pointer (undefined behaviour). */
  datatype Outcome<T> = Running(value: T) | Exited(status: int) | Undefined

  /** Status passed to exit() by every fatal path. */
  const ExitFailure := 1

  // ---------------------------------------------------------------------------------------
  // Event taxonomy
  // ---------------------------------------------------------------------------------------

  datatype EventType =
    KeyDown | KeyUp | KeyRepeat | MouseDown | MouseUp | MouseMove | MouseScroll | Resize

  /** The tags in declaration order; a tag's C enumerator value is its position here. */
  const EventTypes: seq<EventType> :=
    [KeyDown, KeyUp, KeyRepeat, MouseDown, MouseUp, MouseMove, MouseScroll, Resize]

  /** The C enumerator value of a tag. */
  function Ordinal(t: EventType): (n: nat)
    ensures n < |EventTypes| && EventTypes[n] == t
  {
    match t
    case KeyDown => 0
    case KeyUp => 1
    case KeyRepeat => 2
    case MouseDown => 3
    case MouseUp => 4
    case MouseMove => 5
    case MouseScroll => 6
    case Resize => 7
  }

  /** Decodes an enumerator value; only 0..7 name a tag. */
  function EventTypeOf(n: int): (r: Option<EventType>)
    ensures r.Some? <==> 0 <= n < 8
    ensures r.Some? ==> Ordinal(r.value) == n
  {
    if 0 <= n < |EventTypes| then Some(EventTypes[n]) else None
  }

  /** Exactly eight tags, numbered 0..7 without gaps or repetitions. */
  lemma EventTaxonomy()
    ensures |EventTypes| == 8
    ensures forall i, j :: 0 <= i < j < |EventTypes| ==> EventTypes[i] != EventTypes[j]
    ensures forall t: EventType :: EventTypeOf(Ordinal(t)) == Some(t)
    ensures forall n :: 0 <= n < 8 ==> EventTypeOf(n).Some? && Ordinal(EventTypeOf(n).value) == n
  {
  }

  // ---------------------------------------------------------------------------------------
  // Key codes. capp_keycode is an int enumeration whose every enumerator is defined as the
  // GLFW 3 key constant of the same name (CAPP_KEY_UNKNOWN as -1), so the key thunk's cast
  // from GLFW's int is the identity. GLFW lays its key constants out in runs of consecutive
  // values; the table below lists all 121 enumerator values in declaration order.
  // ---------------------------------------------------------------------------------------

  /** The values start, start + 1, ..., start + n - 1. */
  function Run(start: int, n: nat): seq<int>
  {
    seq(n, i requires 0 <= i < n => start + i)
  }

  predicate Ascending(s: seq<int>)
  {
    forall i, j :: 0 <= i < j < |s| ==> s[i] < s[j]
  }

  /** How many times `x` occurs in `s`. */
  function Count<T(==)>(s: seq<T>, x: T): nat
  {
    if |s| == 0 then 0
    else Count(s[..|s| - 1], x) + if s[|s| - 1] == x then 1 else 0
  }

  /** A value occurs zero times exactly when it is not in the list. */
  lemma {:induction false} CountZero<T>(s: seq<T>, x: T)
    ensures Count(s, x) == 0 <==> x !in s
  {
    if |s| > 0 {
      assert s == s[..|s| - 1] + [s[|s| - 1]];
      CountZero(s[..|s| - 1], x);
    }
  }

  lemma {:induction false} CountConcat<T>(a: seq<T>, b: seq<T>, x: T)
    ensures Count(a + b, x) == Count(a, x) + Count(b, x)
    decreases |b|
  {
    if |b| == 0 {
      assert a + b == a;
    } else {
      assert (a + b)[..|a + b| - 1] == a + b[..|b| - 1];
      CountConcat(a, b[..|b| - 1], x);
    }
  }

  lemma CountSingle<T>(y: T, x: T)
    ensures Count([y], x) == if y == x then 1 else 0
  {
    assert [y][..0] == [];
  }

  /** In an ascending list a member occurs exactly once. */
  lemma {:induction false} AscendingCountOne(s: seq<int>, x: int)
    requires Ascending(s) && x in s
    ensures Count(s, x) == 1
  {
    var init := s[..|s| - 1];
    if x == s[|s| - 1] {
      assert x !in init by {
        forall k | 0 <= k < |init| ensures init[k] != x {
          assert s[k] < s[|s| - 1];
        }
      }
      CountZero(init, x);
    } else {
      assert x in init by {
        var k :| 0 <= k < |s| && s[k] == x;
        assert init[k] == x;
      }
      AscendingCountOne(init, x);
    }
  }

  /** Two ascending runs, the first ending below the start of the second, form an ascending run. */
  lemma AscendingConcat(a: seq<int>, b: seq<int>)
    requires Ascending(a) && Ascending(b)
    requires |a| > 0 && |b| > 0 ==> a[|a| - 1] < b[0]
    ensures Ascending(a + b)
  {
    forall i, j | 0 <= i < j < |a + b|
      ensures (a + b)[i] < (a + b)[j]
    {
      if j < |a| {
      } else if i >= |a| {
      } else {
        assert a[i] <= a[|a| - 1];
        assert b[0] <= b[j - |a|];
      }
    }
  }

  /** UNKNOWN; SPACE; APOSTROPHE; COMMA..SLASH; 0..9; SEMICOLON; EQUAL; A..Z;
      LEFT_BRACKET..RIGHT_BRACKET; GRAVE_ACCENT; WORLD_1, WORLD_2; ESCAPE..END;
      CAPS_LOCK..PAUSE; F1..F25; KP_0..KP_EQUAL; LEFT_SHIFT..MENU. */
  const KeyCodes: seq<int> :=
    [-1] + [32] + [39] + Run(44, 4) + Run(48, 10) + [59] + [61] + Run(65, 26) + Run(91, 3)
    + [96] + Run(161, 2) + Run(256, 14) + Run(280, 5) + Run(290, 25) + Run(320, 17)
    + Run(340, 9)

  const KeyUnknown := -1
  const KeyG := 71
  const KeyS := 83
  const KeyW := 87
  const KeyEscape := 256

  predicate IsKeyCode(c: int)
  {
    c in KeyCodes
  }

  /** The table has 121 distinct values: UNKNOWN is -1 and comes first, every other key is a
      GLFW key constant between SPACE (32) and MENU (348), so each value names one key. */
  lemma KeyTable()
    ensures |KeyCodes| == 121
    ensures Ascending(KeyCodes)
    ensures KeyCodes[0] == KeyUnknown
    ensures forall i :: 1 <= i < |KeyCodes| ==> 32 <= KeyCodes[i] <= 348
    ensures IsKeyCode(KeyG) && IsKeyCode(KeyS) && IsKeyCode(KeyW) && IsKeyCode(KeyEscape)
  {
    KeyCodesAscending();
    assert KeyCodes[1] == 32;
    assert KeyCodes[25] == KeyG && KeyCodes[37] == KeyS && KeyCodes[41] == KeyW;
    assert KeyCodes[51] == KeyEscape;
  }

  lemma RunAscending(start: int, n: nat)
    ensures Ascending(Run(start, n))
  {
  }

  /** Appending a run that starts above the last value keeps a list ascending. */
  lemma AppendRun(s: seq<int>, start: int, n: nat)
    requires Ascending(s) && |s| > 0 && s[|s| - 1] < start
    ensures Ascending(s + Run(start, n))
  {
    RunAscending(start, n);
    AscendingConcat(s, Run(start, n));
  }

  lemma {:induction false} KeyCodesAscending()
    ensures Ascending(KeyCodes)
  {
    var s: seq<int> := [-1];
    AppendRun(s, 32, 1); s := s + Run(32, 1);
    AppendRun(s, 39, 1); s := s + Run(39, 1);
    AppendRun(s, 44, 4); s := s + Run(44, 4);
    AppendRun(s, 48, 10); s := s + Run(48, 10);
    AppendRun(s, 59, 1); s := s + Run(59, 1);
    AppendRun(s, 61, 1); s := s + Run(61, 1);
    AppendRun(s, 65, 26); s := s + Run(65, 26);
    AppendRun(s, 91, 3); s := s + Run(91, 3);
    AppendRun(s, 96, 1); s := s + Run(96, 1);
    AppendRun(s, 161, 2); s := s + Run(161, 2);
    AppendRun(s, 256, 14); s := s + Run(256, 14);
    AppendRun(s, 280, 5); s := s + Run(280, 5);
    AppendRun(s, 290, 25); s := s + Run(290, 25);
    AppendRun(s, 320, 17); s := s + Run(320, 17);
    AppendRun(s, 340, 9); s := s + Run(340, 9);
    assert Run(32, 1) == [32] && Run(39, 1) == [39] && Run(59, 1) == [59] && Run(61, 1) == [61] && Run(96, 1) == [96];
    assert s == KeyCodes;
  }

  // ---------------------------------------------------------------------------------------
  // Mouse-button codes: GLFW numbers the eight buttons 0..7; LEFT, RIGHT and MIDDLE are
  // buttons 1, 2 and 3, and LAST is button 8.
  // ---------------------------------------------------------------------------------------

  datatype MouseButton = Button1 | Button2 | Button3 | Button4 | Button5 | Button6 | Button7 | Button8

  const MouseLeft := Button1
  const MouseRight := Button2
  const MouseMiddle := Button3
  const MouseLast := Button8

  function MouseCode(b: MouseButton): int
  {
    match b
    case Button1 => 0
    case Button2 => 1
    case Button3 => 2
    case Button4 => 3
    case Button5 => 4
    case Button6 => 5
    case Button7 => 6
    case Button8 => 7
  }

  function MouseButtonOf(c: int): (r: Option<MouseButton>)
    ensures r.Some? <==> 0 <= c < 8
    ensures r.Some? ==> MouseCode(r.value) == c
  {
    match c
    case 0 => Some(Button1)
    case 1 => Some(Button2)
    case 2 => Some(Button3)
    case 3 => Some(Button4)
    case 4 => Some(Button5)
    case 5 => Some(Button6)
    case 6 => Some(Button7)
    case 7 => Some(Button8)
    case _ => None
  }

  lemma MouseCodeRoundTrip(b: MouseButton)
    ensures MouseButtonOf(MouseCode(b)) == Some(b)
  {
  }

  // ---------------------------------------------------------------------------------------
  // Records
  // ---------------------------------------------------------------------------------------

  /** The window record (capp_window). `handle` 0 is the null GLFW window. */
  datatype Window = Window(
    handle: nat, width: int, height: int, title: string, fullscreen: bool,
    glMajor: int, glMinor: int)

  /** The payload fields an event's thunk fills in (the rest of capp_event is left
      uninitialised by the source and has no counterpart here). */
  datatype Payload =
    | KeyInput(keyCode: int, scancode: int, action: int, mods: int)
    | ButtonInput(mouseCode: int, action: int, mods: int, mouseX: real, mouseY: real)
    | CursorInput(mouseX: real, mouseY: real)
    | ScrollInput(scrollX: real, scrollY: real)
    | SizeInput(width: int, height: int)

  datatype Event = Event(kind: EventType, payload: Payload)

  /** The tag decides which payload fields are meaningful. */
  predicate WellFormed(e: Event)
  {
    match e.kind
    case KeyDown | KeyUp | KeyRepeat => e.payload.KeyInput?
    case MouseDown | MouseUp => e.payload.ButtonInput?
    case MouseMove => e.payload.CursorInput?
    case MouseScroll => e.payload.ScrollInput?
    case Resize => e.payload.SizeInput?
  }

  /** The application configuration (capp_conf); each callback is modelled by whether it is set. */
  datatype Conf = Conf(
    initCb: bool, frameCb: bool, cleanupCb: bool, eventCb: bool,
    width: int, height: int, title: string, resizable: bool, fullscreen: bool,
    glMajor: int, glMinor: int)

  /** Graphics configuration (cg_conf). */
  datatype GfxConf = GfxConf(depthTest: bool, blend: bool)

  datatype Color = Color(r: real, g: real, b: real, a: real)

  /** cg_pass_action: `clearDepth` in [0,1] and `clearStencil` >= 0 opt in to those clears. */
  datatype PassAction = PassAction(clearColor: Color, clearDepth: real, clearStencil: int)

  /** cg_shader: program 0 is the "no program" result of a failed load. */
  datatype Shader = Shader(program: nat)

  /** cg_bindings: `ebo` 0 is the "no index buffer" sentinel. */
  datatype Bindings = Bindings(vao: nat, vbo: nat, ebo: nat)

  datatype Pipeline = Pipeline(shader: Shader, primitiveType: nat)

  datatype PipelineConf = PipelineConf(shader: Shader, primitiveType: nat)

  /** A caller-supplied byte buffer; `data` None is the null pointer. */
  datatype Blob = Blob(size: nat, data: Option<seq<bv8>>)

  datatype BufferConf = BufferConf(vertexBuffer: Blob, indexBuffer: Blob)

  /** The process-wide graphics context (cg_context): three append-only lists, each with its count. */
  datatype Context = Context(
    shaders: seq<Shader>, shaderCount: nat,
    pipelines: seq<Pipeline>, pipelineCount: nat,
    bindings: seq<Bindings>, bindingCount: nat)
  {
    /** Every list is paired with its own count. */
    predicate CountsAgree()
    {
      shaderCount == |shaders| && pipelineCount == |pipelines| && bindingCount == |bindings|
    }
  }

  /** The zero-initialised context, and the one cg_setup resets to. */
  const EmptyContext := Context([], 0, [], 0, [], 0)

  /** A pipeline is made from its configuration field by field, and back. */
  function PipelineOf(c: PipelineConf): Pipeline
  {
    Pipeline(c.shader, c.primitiveType)
  }

  function ConfOf(p: Pipeline): PipelineConf
  {
    PipelineConf(p.shader, p.primitiveType)
  }

  lemma PipelineConfRoundTrip(c: PipelineConf, p: Pipeline)
    ensures ConfOf(PipelineOf(c)) == c
    ensures PipelineOf(ConfOf(p)) == p
  {
  }
}
